=== FILE: README.md ===
# Food Keeper authentication and food-item core, in Dafny

This project models the core of Food Keeper, a food-tracking web application with a Java backend and a JavaScript client.

**One-time codes.** The application issues one-time codes (OTPs) to verify an email address and to reset a password. The model covers:
- the code ledger: records, expiry, and the repository queries;
- generating, verifying and sweeping codes.

**Accounts.** The model covers:
- the user repository's lookups by email and by provider;
- how a Google sign-in is reconciled with the stored accounts;
- the six email-and-password flows of the authentication service: register, login, verify-email, forgot-password, reset-password, and resend-verification;
- the validity constraints on the request objects.

**Food items.** As a second core it models the per-user food-item store:
- the entity constraints;
- the repository's queries and aggregates;
- the create, update and delete rules of the service and controller;
- the date-range dispatch and the export's day bounds and file name;
- the client's search-and-tab filter, calorie total and counters.

The model is functional. Each store is an immutable value:
- the code ledger is a sequence of records;
- users are a map keyed by email;
- food items are a sequence with an id counter.

Each operation is a pure function from (state, inputs, clock, random draw, mail outcome) to (outcome, new state). An `Outcome` is one of:
- `Ok`;
- `Rejected`, a reply that reports failure (success = false, or bad request);
- `Raised`, an exception that escapes.

The flows marked transactional in the source undo their writes when they raise. The forgot-password and resend flows are not transactional, so their new code stays stored when the mail fails.

Modules:
- `Common`: options, outcomes, time in seconds, generic filter, sort, count, sum and substring search, with their algebra.
- `Otp`: the code ledger, its repository and the code service.
- `Users`: the user record and the repository lookups.
- `OAuth`: Google sign-in reconciliation and the token subject.
- `Requests`: the request validity predicates.
- `Auth`: the authentication flows, and lemmas that connect them.
- `Food`: the food item, its constraints, and the repository queries.
- `FoodService`: create/update/delete, the date-range dispatch, and export.
- `FoodTracker`: the client-side filter and counters.

Source paths in the table are relative to the repository root.

## Model

| member | source | states |
|---|---|---|
| Common.DayBoundsRoundTrip | backend/src/main/java/com/foodkeeper/controller/FoodItemController.java:172-181 | A day's start (00:00) and end (23:59:59) both fall on that day, and the end is before the next day's start. |
| Common.Filter | frontend/src/components/FoodTracker.js:57-76 | Filtering keeps, in order, exactly the elements that pass, with the multiplicity they had, and never lengthens the list. |
| Common.FilterFilter | frontend/src/components/FoodTracker.js:53-80 | Two filters in a row equal one filter by their conjunction. |
| Common.CountIsFilterLength | backend/src/main/java/com/foodkeeper/repository/FoodItemRepository.java:39-44 | A COUNT with a condition equals the length of the list that the same condition selects. |
| Common.FilterPermutation | backend/src/main/java/com/foodkeeper/repository/FoodItemRepository.java:18 | Filtering two rearrangements of one list gives the same elements, so their counts agree. |
| Common.SumOfPermutation | backend/src/main/java/com/foodkeeper/repository/FoodItemRepository.java:51-52 | A sum does not depend on the order of its terms. |
| Common.SumOfFilterDropsZeros | backend/src/main/java/com/foodkeeper/repository/FoodItemRepository.java:51-52 | Leaving out terms that are zero does not change a sum. |
| Common.SortDesc | backend/src/main/java/com/foodkeeper/repository/FoodItemRepository.java:18 | ORDER BY … DESC returns a rearrangement of its input with non-increasing keys. |
| Common.Lower | frontend/src/components/FoodTracker.js:58-59 | Case folding keeps the length and folds each character on its own (ASCII letters only). |
| Common.Contains | frontend/src/components/FoodTracker.js:58-59 | Substring search holds exactly when the term occurs as a contiguous block at some position. |
| Common.Utf16Length | backend/src/main/java/com/foodkeeper/dto/AuthRequest.java:29-42 | Java string length counts UTF-16 units: at least the character count and at most twice it. It equals the count when every character is in the Basic Multilingual Plane, and is twice it when none is. |
| Requests.ValidLogin | backend/src/main/java/com/foodkeeper/dto/AuthRequest.java:10-16 | A login request needs a non-blank email and a non-blank password. |
| Requests.ValidSignup | backend/src/main/java/com/foodkeeper/dto/AuthRequest.java:27-43 | A signup needs non-blank first and last names of at most 50 UTF-16 units, a non-blank email of at most 100, and a non-blank password of 6 to 40. |
| Requests.ValidOtpVerification | backend/src/main/java/com/foodkeeper/dto/AuthRequest.java:60-67 | A verification request needs a non-blank email and a non-blank code of exactly 6 units. |
| Requests.ValidPasswordReset | backend/src/main/java/com/foodkeeper/dto/AuthRequest.java:78-89 | A reset request needs a non-blank email, a non-blank code of exactly 6 units, and a non-blank new password of 6 to 40. |
| Requests.ValidEmailRequest | backend/src/main/java/com/foodkeeper/dto/AuthRequest.java:103-106 | An email request needs a non-blank email. |
| Otp.NewRecordLifetime | backend/src/main/java/com/foodkeeper/model/OtpVerification.java:29-65 | A new record is unverified, expires at its creation plus the lifetime, and is active through that instant inclusive. It is expired at every later instant, whatever its verified flag. |
| Otp.NewRecord | backend/src/main/java/com/foodkeeper/model/OtpVerification.java:34-39 | The constructor: the given email, code and type, created now, expiring `expirationMinutes` later (the generator passes ten), and not yet verified. |
| Otp.IsExpired | backend/src/main/java/com/foodkeeper/model/OtpVerification.java:63-65 | A record is expired exactly when the instant is strictly after its expiry time. |
| Otp.OnePerPairGivesUniqueLookup | backend/src/main/java/com/foodkeeper/repository/OtpVerificationRepository.java:17 | With at most one record per (email, type), the single-result lookup never sees two matches. |
| Otp.FindUnconsumed | backend/src/main/java/com/foodkeeper/repository/OtpVerificationRepository.java:17 | The lookup returns the one record whose email, code and type all match and whose verified flag is false. It returns nothing exactly when no record matches. |
| Otp.ExistsIffFound | backend/src/main/java/com/foodkeeper/repository/OtpVerificationRepository.java:31 | The existence query is true exactly when the lookup finds a record; it checks no expiry. |
| Otp.DeleteByEmailAndType | backend/src/main/java/com/foodkeeper/repository/OtpVerificationRepository.java:26-29 | Every record of the pair is deleted, verified or not. Every record of any other pair stays, in order. |
| Otp.DeleteExpired | backend/src/main/java/com/foodkeeper/repository/OtpVerificationRepository.java:21-24 | Exactly the records with expiry strictly before `now` are deleted; all others stay, in order. |
| Otp.FindLatest | backend/src/main/java/com/foodkeeper/repository/OtpVerificationRepository.java:19 | Returns a record of the pair with the latest creation time, or nothing exactly when the pair has no record. |
| Otp.DecimalStringFacts | backend/src/main/java/com/foodkeeper/service/OtpService.java:26 | The decimal rendering of an integer with k digits is k digit characters, with no leading zero, whose value is the integer. |
| Otp.GenerateOtp | backend/src/main/java/com/foodkeeper/service/OtpService.java:24-27 | A code is the decimal form of 100000 plus the draw: six digits whose first digit is never 0. |
| Otp.GenerateAndSaveOtp | backend/src/main/java/com/foodkeeper/service/OtpService.java:29-39 | Afterwards the pair has exactly one record: the returned code, unverified, expiring ten minutes later. Every other pair's records are unchanged. |
| Otp.VerifyOtp | backend/src/main/java/com/foodkeeper/service/OtpService.java:41-61 | Accepts exactly when an unverified matching record is unexpired. On refusal the ledger is unchanged; on acceptance only that record becomes verified. |
| Otp.IsValidOtp | backend/src/main/java/com/foodkeeper/service/OtpService.java:63-65 | True exactly when an unverified matching record exists, expired or not; it is read-only. |
| Otp.CleanupExpiredOtps | backend/src/main/java/com/foodkeeper/service/OtpService.java:71-76 | The sweep removes exactly the records already expired at `now`. Every other record stays, in order and with its copies, and nothing is added. |
| Otp.VerifyAcceptsOnlyActive | backend/src/main/java/com/foodkeeper/service/OtpService.java:46-54 | Verification accepts exactly when the matching record's state is Active (neither consumed nor expired). |
| Otp.VerifyConsumesOnce | backend/src/main/java/com/foodkeeper/service/OtpService.java:56-60 | After an acceptance, the same call at any later instant is refused, and the existence probe answers false. |
| Otp.ExpiredMatchIsRefused | backend/src/main/java/com/foodkeeper/service/OtpService.java:52-54 | A matching but expired record is refused and left unverified, while the existence probe still answers true. |
| Otp.ProbeIgnoresExpiry | backend/src/main/java/com/foodkeeper/service/OtpService.java:63-65 | Acceptance implies the probe answers true. When the probe answers true, acceptance depends only on the record's expiry. |
| Otp.GeneratePreservesOnePerPair | backend/src/main/java/com/foodkeeper/service/OtpService.java:31-36 | Generation keeps at most one record per (email, type). |
| Otp.VerifyPreservesOnePerPair | backend/src/main/java/com/foodkeeper/service/OtpService.java:56-58 | Verification keeps at most one record per (email, type). |
| Otp.CleanupPreservesOnePerPair | backend/src/main/java/com/foodkeeper/service/OtpService.java:74-76 | The sweep keeps at most one record per (email, type). |
| Otp.CleanupInvisibleToVerify | backend/src/main/java/com/foodkeeper/service/OtpService.java:72-76 | Sweeping never removes a record that verification at that instant or later could still accept: verification answers the same before and after the sweep. |
| Otp.RegenerationSupersedes | backend/src/main/java/com/foodkeeper/service/OtpService.java:29-39 | After a second generation for a pair, the first code (if different) no longer verifies. The second verifies exactly until ten minutes after its creation. |
| Otp.GeneratedRowIsAlone | backend/src/main/java/com/foodkeeper/service/OtpService.java:32-36 | The new record is the last one stored and the only record of its pair. |
| Otp.PairRowsAfterGenerate | backend/src/main/java/com/foodkeeper/service/OtpService.java:29-39 | After generation, for any code and instant t, verification accepts exactly the returned code, and only while t is within ten minutes. |
| Users.FindByEmail | backend/src/main/java/com/foodkeeper/repository/UserRepository.java:13 | Finds the row stored under the email, whatever its provider. |
| Users.ExistsByEmail | backend/src/main/java/com/foodkeeper/repository/UserRepository.java:13-15 | True exactly when the email lookup finds a row. |
| Users.FindByEmailAndProvider | backend/src/main/java/com/foodkeeper/repository/UserRepository.java:17 | Finds the email's row only when its provider is the one asked for. |
| Users.FindByLocalEmail | backend/src/main/java/com/foodkeeper/repository/UserRepository.java:26-29 | Returns a user only when that email's row has provider LOCAL. |
| Users.FindByGoogleEmail | backend/src/main/java/com/foodkeeper/repository/UserRepository.java:22-24 | Returns a user only when that email's row has provider GOOGLE. |
| Users.Save | backend/src/main/java/com/foodkeeper/repository/UserRepository.java:11 | Saving inserts or replaces the row of the user's email, changes no other row, and keeps rows filed under their emails. |
| Users.ProviderLookupsPartition | backend/src/main/java/com/foodkeeper/repository/UserRepository.java:22-29 | A stored email is found by exactly one of the LOCAL and GOOGLE lookups. |
| OAuth.SplitName | backend/src/main/java/com/foodkeeper/config/OAuth2AuthenticationSuccessHandler.java:66-68 | The first name has no space. If the name has a space, first + " " + last gives the name back; otherwise the whole name is the first name and the last name is empty. |
| OAuth.SplitNameUnique | backend/src/main/java/com/foodkeeper/config/OAuth2AuthenticationSuccessHandler.java:66-68 | Any space-free first part that rebuilds the name with one space is the split's result, so the split is at the first space. |
| OAuth.SplitExamples | backend/src/main/java/com/foodkeeper/config/OAuth2AuthenticationSuccessHandler.java:66-68 | "Madonna" → ("Madonna", ""); "A B C" → ("A", "B C"); "" → ("", ""); " Bob" → ("", "Bob"). |
| OAuth.UpdateExistingUser | backend/src/main/java/com/foodkeeper/config/OAuth2AuthenticationSuccessHandler.java:75-108 | Names are overwritten and the picture is replaced only when one is asserted. The provider becomes GOOGLE and the email verified. Password, provider id, email and enabled are untouched. It reports an update exactly when the row changed. |
| OAuth.CreateNewUser | backend/src/main/java/com/foodkeeper/config/OAuth2AuthenticationSuccessHandler.java:110-122 | A new row is GOOGLE, has provider id = sub, is verified and enabled, and has no password. |
| OAuth.ProcessGoogleUser | backend/src/main/java/com/foodkeeper/config/OAuth2AuthenticationSuccessHandler.java:57-73 | The reconciled row carries the asserted email and is GOOGLE and verified. The store gains at most that email. A write happens only as a save of that row. |
| OAuth.ProcessOAuth2User | backend/src/main/java/com/foodkeeper/config/OAuth2AuthenticationSuccessHandler.java:50-55 | Only the "google" registration is handled; any other raises. |
| OAuth.OnAuthenticationSuccess | backend/src/main/java/com/foodkeeper/config/OAuth2AuthenticationSuccessHandler.java:39-40 | The token's subject is the asserted email, and the store stays keyed by email. |
| OAuth.NewEmailCreatesOneUser | backend/src/main/java/com/foodkeeper/config/OAuth2AuthenticationSuccessHandler.java:70-72 | An unseen email adds exactly one row (GOOGLE, provider id = sub, verified, enabled) and changes no other. |
| OAuth.ExistingEmailIsMerged | backend/src/main/java/com/foodkeeper/config/OAuth2AuthenticationSuccessHandler.java:93-101 | An existing row becomes GOOGLE and verified. It keeps its password, provider id and enabled flag, and keeps its picture when none is asserted. No other row changes. |
| OAuth.ReplayWritesNothing | backend/src/main/java/com/foodkeeper/config/OAuth2AuthenticationSuccessHandler.java:103-107 | Repeating the same assertion right away causes no write and no change. |
| OAuth.UpdateIdempotent | backend/src/main/java/com/foodkeeper/config/OAuth2AuthenticationSuccessHandler.java:76-107 | Merging the same data into an already merged row reports no update. |
| OAuth.UnsupportedProviderTouchesNothing | backend/src/main/java/com/foodkeeper/config/OAuth2AuthenticationSuccessHandler.java:51-54 | An unsupported provider raises, and no user is created or modified. |
| Requests.BlankCodeRejected | backend/src/main/java/com/foodkeeper/dto/AuthRequest.java:65-67 | Six spaces have the right length but fail the not-blank constraint; six digits pass. |
| Requests.SupplementaryCharactersCountTwice | backend/src/main/java/com/foodkeeper/dto/AuthRequest.java:28-30 | 26 characters outside the Basic Multilingual Plane have length 52, so a first name made of them fails `@Size(max = 50)`. |
| Auth.RegisterUser | backend/src/main/java/com/foodkeeper/service/AuthService.java:40-67 | A taken email under any provider is refused with nothing stored. Otherwise a LOCAL, unverified row with the encoded password is added, with exactly one fresh verification code for the email. Other pairs' codes are unchanged. |
| Auth.AuthenticateUser | backend/src/main/java/com/foodkeeper/service/AuthService.java:69-86 | "User not found" exactly when no LOCAL row has the email. "Verify your email" exactly when that row is unverified. For a verified LOCAL row, a session with a token for the email exactly when the password matches the stored hash, and bad credentials exactly when it does not or no hash is stored. |
| Auth.VerifyEmail | backend/src/main/java/com/foodkeeper/service/AuthService.java:88-108 | A refused code changes nothing. An accepted code with no row for the email raises and is rolled back. An accepted code with a row always succeeds: the code is consumed and only that row becomes verified. |
| Auth.SendPasswordResetOtp | backend/src/main/java/com/foodkeeper/service/AuthService.java:110-118 | Needs a LOCAL row. The email's reset code is replaced by exactly one fresh one, and it stays stored when the mail fails, which raises. |
| Auth.ResetPassword | backend/src/main/java/com/foodkeeper/service/AuthService.java:120-133 | The code is checked before the row is looked up. A refused code, or an accepted one without a LOCAL row, changes nothing. An accepted code with a LOCAL row always succeeds: the code is consumed and only that row's password becomes the encoded new one. |
| Auth.ResendVerificationOtp | backend/src/main/java/com/foodkeeper/service/AuthService.java:135-147 | An already verified row is refused with no new code. Otherwise the email's verification code is replaced by one fresh one, which stays when the mail fails. |
| Auth.FederatedLogin | backend/src/main/java/com/foodkeeper/config/OAuth2AuthenticationSuccessHandler.java:33-40 | A Google sign-in yields a token for the asserted email and the reconciled store, and touches no code. Any other provider raises with nothing changed. |
| Auth.FederatedLoginKeepsConsistent | backend/src/main/java/com/foodkeeper/config/OAuth2AuthenticationSuccessHandler.java:57-122 | A Google sign-in, merging or creating, keeps users filed under their emails and at most one code per (email, type). |
| Auth.RegisterKeepsConsistent | backend/src/main/java/com/foodkeeper/service/AuthService.java:55-59 | Registration keeps users keyed by email and at most one code per (email, type). |
| Auth.VerifyEmailKeepsConsistent | backend/src/main/java/com/foodkeeper/service/AuthService.java:90-98 | Verify-email keeps the store invariants, and its lookup never meets two matches. |
| Auth.SendResetKeepsConsistent | backend/src/main/java/com/foodkeeper/service/AuthService.java:114 | Forgot-password keeps the store invariants. |
| Auth.ResetKeepsConsistent | backend/src/main/java/com/foodkeeper/service/AuthService.java:122-130 | Reset-password keeps the store invariants, and its lookup never meets two matches. |
| Auth.ResendKeepsConsistent | backend/src/main/java/com/foodkeeper/service/AuthService.java:143 | Resend keeps the store invariants. |
| Auth.SweepKeepsConsistent | backend/src/main/java/com/foodkeeper/service/OtpService.java:74-76 | The scheduled sweep keeps the store invariants. |
| Auth.SwallowedMailFailures | backend/src/main/java/com/foodkeeper/service/AuthService.java:58-64 | Whether the verification or welcome mail is sent changes neither the answer nor the state of register and verify-email. |
| Auth.UnverifiedRefusedBeforePassword | backend/src/main/java/com/foodkeeper/service/AuthService.java:74-76 | An unverified LOCAL row is refused with "verify your email", whatever password is offered. |
| Auth.GoogleUpgradeLocksOutPassword | backend/src/main/java/com/foodkeeper/service/AuthService.java:71 | After a Google sign-in on a LOCAL account's email, the row is GOOGLE with its password hash kept. Password login then answers "User not found", and so does forgot-password. |
| Auth.ResetCodeCannotVerifyEmail | backend/src/main/java/com/foodkeeper/service/AuthService.java:90 | A code that exists only as a PASSWORD_RESET code cannot verify an email, and nothing changes. |
| Auth.VerificationCodeCannotResetPassword | backend/src/main/java/com/foodkeeper/service/AuthService.java:122 | A code that exists only as an EMAIL_VERIFICATION code cannot reset a password, and nothing changes. |
| Auth.ResendForVerifiedDoesNothing | backend/src/main/java/com/foodkeeper/service/AuthService.java:139-141 | Resend for a verified row answers failure and stores no code. |
| Auth.RegisterVerifyLoginScenario | backend/src/main/java/com/foodkeeper/service/AuthService.java:40-108 | Register, then verify with the mailed code within ten minutes, then log in. The code passes request validation, the row becomes verified, the right password gets a token for the email, and a wrong one gets bad credentials. |
| Auth.RegisteredPasswordLogsIn | backend/src/main/java/com/foodkeeper/service/AuthService.java:40-108 | After registration, login answers "verify your email" for every password. Verify-email succeeds exactly when the code is accepted. After that, a password logs in exactly when it matches the hash of the signup password. |
| Auth.GeneratedCodePassesValidation | backend/src/main/java/com/foodkeeper/service/OtpService.java:24-27 | Every generated code, with a non-blank email, passes the verify-email request constraints, and with a valid new password the reset-password ones. |
| Auth.ForgotTwiceScenario | backend/src/main/java/com/foodkeeper/service/AuthService.java:110-133 | After two forgot-password requests, the first code no longer resets the password. The second does, and stores the encoded new password. |
| Food.FindAllByOwner | backend/src/main/java/com/foodkeeper/repository/FoodItemRepository.java:18 | Exactly the owner's items, newest first. |
| Food.FindByIdAndOwner | backend/src/main/java/com/foodkeeper/repository/FoodItemRepository.java:21 | Finds the item with that id only when the owner owns it; nothing exactly when there is none. |
| Food.FieldsSatisfyConstraints | backend/src/main/java/com/foodkeeper/model/FoodItem.java:20-42 | The entity constraints on the user-supplied fields: a non-blank name of at most 100 UTF-16 units, a description of at most 500, a calorie count of at least 0, and a quantity of at most 50. |
| Food.SatisfiesConstraints | backend/src/main/java/com/foodkeeper/model/FoodItem.java:20-42 | An item is valid exactly when its name, description, calorie count and quantity are; the id, owner and times are not constrained. |
| Food.SearchByName | backend/src/main/java/com/foodkeeper/repository/FoodItemRepository.java:24 | Exactly the owner's items whose name contains the term, ignoring case, newest first. |
| Food.ConsumedBetween | backend/src/main/java/com/foodkeeper/repository/FoodItemRepository.java:27-28 | Exactly the owner's items consumed within the bounds, both ends included, latest consumed first. |
| Food.RecentSince | backend/src/main/java/com/foodkeeper/repository/FoodItemRepository.java:31-32 | Exactly the owner's items created at or after the instant, newest first. |
| Food.ConsumedItems | backend/src/main/java/com/foodkeeper/repository/FoodItemRepository.java:35-36 | Exactly the owner's items that have a consumed time, latest consumed first. |
| Food.WithCalories | backend/src/main/java/com/foodkeeper/repository/FoodItemRepository.java:47-48 | Exactly the owner's items whose calorie count is present and positive, newest first. |
| Food.CountTotal | backend/src/main/java/com/foodkeeper/repository/FoodItemRepository.java:39-40 | The number of the owner's items. |
| Food.CountConsumed | backend/src/main/java/com/foodkeeper/repository/FoodItemRepository.java:43-44 | The number of the owner's items that have a consumed time. |
| Food.TotalCalories | backend/src/main/java/com/foodkeeper/repository/FoodItemRepository.java:51-52 | The sum of the owner's recorded calorie counts, 0 when none is recorded. |
| Food.QueriesStayWithinOwner | backend/src/main/java/com/foodkeeper/repository/FoodItemRepository.java:18-48 | Every list query returns only stored items of the owner it was asked for. |
| Food.CountsMatchLists | backend/src/main/java/com/foodkeeper/repository/FoodItemRepository.java:39-44 | The total count is the length of the owner's list, and the consumed count is the length of the consumed list. |
| Food.TotalWithoutCaloriesIsZero | backend/src/main/java/com/foodkeeper/repository/FoodItemRepository.java:51-52 | With no calorie recorded, the calorie total is 0. |
| Food.TotalIsSumOfWithCalories | backend/src/main/java/com/foodkeeper/repository/FoodItemRepository.java:47-52 | For items that meet the constraints, the total is the sum over the with-calories list, and it is not negative. |
| Food.RangeQueriesWithinAll | backend/src/main/java/com/foodkeeper/repository/FoodItemRepository.java:27-36 | The consumed-between list is within the consumed list and no longer. The created-since list is within the owner's list. |
| FoodService.NameText | backend/src/main/java/com/foodkeeper/service/FoodItemService.java:72 | A missing name fails; an explicit null reads as the text "null"; otherwise it is the given text. |
| FoodService.TextOrNone | backend/src/main/java/com/foodkeeper/service/FoodItemService.java:76 | A blank text is stored as no value; any other text is stored as given. |
| FoodService.PositiveOrNone | backend/src/main/java/com/foodkeeper/service/FoodItemService.java:101-104 | A calorie count is stored only when positive. |
| FoodService.ParseConsumed | backend/src/main/java/com/foodkeeper/service/FoodItemService.java:79-98 | Blank gives no value. A date-time is taken as given. A date alone gives the start of that day. Anything else gives no value. |
| FoodService.Patch | backend/src/main/java/com/foodkeeper/service/FoodItemService.java:74-109 | A missing or null field keeps the stored value; a present field replaces it with its normalised form. |
| FoodService.NewDraft | backend/src/main/java/com/foodkeeper/model/FoodItem.java:51-58 | Construction sets the creation time to now and nothing else but the name. |
| FoodService.ApplyFields | backend/src/main/java/com/foodkeeper/service/FoodItemService.java:74-109 | Each optional field follows the patch rule, and the name and creation time are kept. |
| FoodService.DraftFromRequest | backend/src/main/java/com/foodkeeper/controller/FoodItemController.java:52-94 | On create, the description and quantity are the given text when present and not blank, and unset otherwise. The calorie count is kept exactly when present and positive. A present consumed date is parsed, and one that parses neither as a date-time nor as a date stays unset. The item is created at now. |
| FoodService.SaveFoodItem | backend/src/main/java/com/foodkeeper/service/FoodItemService.java:53-65 | The current owner becomes the owner. The creation time is set to now only when missing, and a fresh id is assigned. The item is stored exactly when its fields meet the constraints; otherwise it raises and nothing is stored. |
| FoodService.CreateFoodItem | backend/src/main/java/com/foodkeeper/controller/FoodItemController.java:46-105 | A missing name, or fields that break the constraints, get a bad request and nothing is stored. Otherwise the create succeeds: one item of the owner, created now, carrying exactly the normalised request fields, is appended under a fresh id. |
| FoodService.UpdateFoodItem | backend/src/main/java/com/foodkeeper/service/FoodItemService.java:68-114 | An id the owner does not own, or a missing name, raises and changes nothing. For an owned item with a name, the update succeeds exactly when the patched fields meet the constraints. Then the name is overwritten and the optional fields follow the patch rules, in place, keeping the id, owner and creation time. |
| FoodService.DeleteFoodItem | backend/src/main/java/com/foodkeeper/service/FoodItemService.java:117-126 | Succeeds exactly when the owner owns an item with that id, removing just that item and leaving the rest in order. Otherwise it raises "not found" and changes nothing. |
| FoodService.ItemsByDateRange | backend/src/main/java/com/foodkeeper/service/FoodItemService.java:154-163 | Both bounds: items consumed between them. Start only: items created since it. End only, or neither: every item of the owner. |
| FoodService.RecentFoodItems | backend/src/main/java/com/foodkeeper/service/FoodItemService.java:135-139 | Exactly the owner's items created at most seven days before now. |
| FoodService.StartBound | backend/src/main/java/com/foodkeeper/controller/FoodItemController.java:170-176 | An absent or blank start gives no bound. A date gives the start of its day. Anything else is refused. |
| FoodService.EndBound | backend/src/main/java/com/foodkeeper/controller/FoodItemController.java:179-185 | An absent or blank end gives no bound. A date gives 23:59:59 of its day. Anything else is refused. |
| FoodService.ExportFilename | backend/src/main/java/com/foodkeeper/controller/FoodItemController.java:190-198 | Both bounds: `food_items_<s>_to_<e>.csv`. Start only: `food_items_from_<s>.csv`. Otherwise, end only included: `food_items_all_time.csv`. |
| FoodService.ExportFoodItems | backend/src/main/java/com/foodkeeper/controller/FoodItemController.java:161-198 | An invalid start is refused before the end is looked at, then an invalid end. Otherwise the rows of the date-range dispatch are exported under the file-name rule. |
| FoodService.WholeDayBounds | backend/src/main/java/com/foodkeeper/controller/FoodItemController.java:172-181 | An instant lies between the start of one day and 23:59:59 of another exactly when its day lies between the two days. |
| FoodService.ExportBetweenDays | backend/src/main/java/com/foodkeeper/controller/FoodItemController.java:170-192 | Exporting between two days yields exactly the owner's items consumed on any day from the first to the last, and names the file by the two days. |
| FoodService.ExportEndOnlyIsAllTime | backend/src/main/java/com/foodkeeper/controller/FoodItemController.java:193-197 | An end date without a start (or with a blank start) exports every item of the owner, as `food_items_all_time.csv`. |
| FoodService.CreateIsPatchOfFresh | backend/src/main/java/com/foodkeeper/controller/FoodItemController.java:52-94 | The controller's field-by-field create normalisation equals the service's update patch rules applied to a newly constructed item. |
| FoodService.PatchIdempotent | backend/src/main/java/com/foodkeeper/service/FoodItemService.java:72-109 | Applying the same patch twice gives what applying it once gives. |
| FoodService.EmptyPatchChangesNothing | backend/src/main/java/com/foodkeeper/service/FoodItemService.java:72-111 | An update with only the stored name and absent or null optional fields leaves a valid item, and the store, as they were. |
| FoodService.OtherOwnersUntouched | backend/src/main/java/com/foodkeeper/service/FoodItemService.java:68-126 | Update and delete never remove another owner's item. |
| FoodService.SaveKeepsStoreInvariants | backend/src/main/java/com/foodkeeper/service/FoodItemService.java:53-65 | Saving keeps ids distinct and every row within the constraints. |
| FoodService.UpdateKeepsStoreInvariants | backend/src/main/java/com/foodkeeper/service/FoodItemService.java:68-114 | Updating keeps ids distinct and every row within the constraints. |
| FoodService.DeleteKeepsStoreInvariants | backend/src/main/java/com/foodkeeper/service/FoodItemService.java:117-126 | Deleting keeps ids distinct and every row within the constraints. |
| FoodService.DeleteIsFinal | backend/src/main/java/com/foodkeeper/service/FoodItemService.java:117-126 | After a delete the item is no longer found, and deleting or updating it again raises "not found". |
| FoodTracker.FilterItems | frontend/src/components/FoodTracker.js:52-84 | An order-preserving sub-list of the items that keeps every copy of a kept item and no copy of a dropped one. It keeps an item exactly when the name, or a non-empty description, contains a typed term ignoring case, and the active tab's test holds: recent, consumed, with calories, or anything else (no test). |
| FoodTracker.MatchesSearchAndTab | frontend/src/components/FoodTracker.js:53-80 | An item is shown when the typed term, if any, occurs in its name or non-empty description ignoring case, and the active tab's test holds. |
| FoodTracker.TabTest | frontend/src/components/FoodTracker.js:64-80 | "recent" keeps items created within seven days, "consumed" items with a consumed time, "with-calories" items with a positive count, and any other tab keeps everything. |
| Common.SubsequenceTransitive | frontend/src/components/FoodTracker.js:53-80 | A sub-list of a sub-list is a sub-list. |
| FoodTracker.GetTotalCalories | frontend/src/components/FoodTracker.js:145-149 | The total of the shown items is 0 when none has a calorie count, and not negative when no count is negative. |
| FoodTracker.MissingCaloriesSumToZero | frontend/src/components/FoodTracker.js:147 | Items without a calorie count contribute nothing to the total. |
| FoodTracker.GetItemsCount | frontend/src/components/FoodTracker.js:151-158 | The total, consumed and with-calories counts come from the full list, and only `filtered` from the shown list. Each count is at most the total. |
| FoodTracker.NoFilterShowsAll | frontend/src/components/FoodTracker.js:53-80 | No search term and the "all" tab show the whole list. |
| FoodTracker.CountsIgnoreFilter | frontend/src/components/FoodTracker.js:151-158 | The counts other than `filtered` do not depend on what is shown. |
| FoodTracker.ClientAgreesWithServer | frontend/src/components/FoodTracker.js:145-158 | On the owner's list as the server sends it, the client's counts and unfiltered total equal the server's count, consumed count, with-calories list length and calorie total. |
| FoodTracker.TotalCaloriesOverOwned | backend/src/main/java/com/foodkeeper/repository/FoodItemRepository.java:51-52 | The server total is the sum over all the owner's items, counting a missing calorie as 0. |
| FoodTracker.TabsNarrow | frontend/src/components/FoodTracker.js:64-80 | Any tab shows a sub-list of what the "all" tab shows for the same search. |
| FoodTracker.TabTotals | frontend/src/components/FoodTracker.js:145-149 | For any search, under the entity constraints, each tab's calorie total is at least 0 and at most the "all" tab's, and the with-calories tab shows the same total as the "all" tab. |

## Left out

- HTTP status mapping, the response DTOs, CORS and redirect-URL building in the controllers are transport glue and are not modelled.
- The bodies of the CSV rows are not modelled. The commons-csv output and the date formatting of each cell belong to a library; the export yields the exported rows and the file name.
- Token signing, the password hash and the authentication manager are opaque functions:
  - `PasswordEncoder.encode` and `matches` are parameters;
  - a token is represented by its subject only.
- The authentication manager's own checks (account enabled, and how it loads the row) are not visible, so they are not modelled. Login succeeds when `matches` holds.
- Randomness: code generation takes the draw `0 <= draw < 900000` as a parameter.
- Mail: delivery is a boolean parameter. Each flow swallows or propagates a failure as it does in the source.
- Time is whole seconds on one local time line:
  - sub-second precision, time zones and daylight-saving shifts (including the client's `setDate(-7)`) are not modelled;
  - where the source reads the clock twice in one operation (creation and expiry of a record), the model uses one instant.
- Transactions are atomic steps: a raising transactional flow leaves the state it started from. Concurrency and the hourly scheduling of the sweep are not modelled.
- Date parsing and printing are an abstract `Calendar` of partial parse functions and a day printer; the ISO formats themselves are not modelled.
- Case folding is ASCII only; Java's and JavaScript's Unicode folding is not modelled.
- `@Email` format validation is not modelled; email fields are checked for non-blank and length only.
- `findByProviderAndProviderId` is declared but no modelled flow calls it, so it is not modelled.
- The food-item service receives the current user's email as a parameter. Its "User not found" path for a missing authenticated user is not modelled.
- The `User` entity source is not part of this model. The model assumes the fields the flows use, and that a new account starts unverified and enabled.
- Integer widths: calorie counts, counts and sums are unbounded integers; Java's 32-bit `int` and 64-bit `long` overflow is not modelled. JSON values other than integers, read through `asInt`, are taken as already converted.
- Spring's single-result lookup throws when two rows match. The model instead requires at most one unconsumed match per lookup; this follows from the invariant of at most one record per (email, type), which every operation preserves.
- Code format: codes are `100000 + nextInt(900000)` (backend/src/main/java/com/foodkeeper/service/OtpService.java:25), so the first digit is never 0; `Otp.GenerateOtp` states this.
- Sort ties: an ORDER BY leaves the order of equal keys open. The query contracts state a rearrangement with non-increasing keys and nothing about ties.
- FoodTracker.GetTotalCalories: JavaScript adds double-precision numbers. The model adds unbounded integers, and the contract does not give the exact total of an arbitrary shown list. `FoodTracker.ClientAgreesWithServer` gives it for the owner's unfiltered list. `FoodTracker.TabTotals` bounds every tab by the "all" tab for the same search, and gives the with-calories tab's total exactly.
- Auth.AuthenticateUser: the disabled-account refusal of the authentication manager is not modelled; the outcome depends only on the LOCAL row, its verified flag and the password match.

=== FILE: auth.dfy ===
/**
 * The authentication flows of the auth service — register, login,
 * verify-email, forgot-password, reset-password, resend-verification — and
 * the federated login, composed from the user store and the code ledger.
 * Each flow maps (state, request, clock, random draw, mail outcome) to an
 * outcome and the state after it.
 */
module Auth {
  import opened Common
  import opened Users
  import opened Otp
  import opened OAuth
  import opened Requests

  /**
   * The password encoder and the authentication manager's password check;
   * both are opaque: `encode` hashes, `matches(raw, hash)` checks.
   */
  datatype PasswordEncoder = PasswordEncoder(encode: string -> string, matches: (string, string) -> bool)

  datatype AuthState = AuthState(users: UserStore, otps: Ledger)

  /** The invariant every flow keeps: rows keyed by email, one code row per pair. */
  ghost predicate Consistent(s: AuthState)
  {
    KeyedByEmail(s.users) && OnePerPair(s.otps)
  }

  datatype Session = Session(token: Token, user: User)

  datatype Step<T> = Step(outcome: Outcome<T>, state: AuthState)

  /** The row a successful registration stores. */
  function LocalUser(req: SignupRequest, enc: PasswordEncoder): User
  {
    User(req.firstName, req.lastName, req.email, Some(enc.encode(req.password)), None, Local, None, false, true)
  }

  /** The one code row of a pair after generation. */
  function CodeRow(email: string, kind: OtpType, now: Time, draw: int): OtpRecord
    requires 0 <= draw < CodeSpan
  {
    OtpRecord(email, GenerateOtp(draw), kind, now, now + 10 * SecondsPerMinute, false)
  }

  /**
   * `registerUser`. A taken email, under any provider, is refused with
   * nothing stored. Otherwise a LOCAL, unverified row with the encoded
   * password is stored and an EMAIL_VERIFICATION code generated; a failure
   * to send the mail is swallowed, so `mailSent` does not affect the result.
   */
  function RegisterUser(s: AuthState, req: SignupRequest, enc: PasswordEncoder, now: Time, draw: int, mailSent: bool): (r: Step<()>)
    requires ValidSignup(req)
    requires 0 <= draw < CodeSpan
    ensures req.email in s.users ==> r == Step(Rejected(EmailTaken), s)
    ensures req.email !in s.users ==>
      && r.outcome == Ok(())
      && r.state.users.Keys == s.users.Keys + {req.email}
      && r.state.users[req.email] == LocalUser(req, enc)
      && (forall e :: e in s.users ==> r.state.users[e] == s.users[e])
      && Filter(r.state.otps, PairTest(req.email, EmailVerification)) == [CodeRow(req.email, EmailVerification, now, draw)]
      && Filter(r.state.otps, OtherPair(req.email, EmailVerification)) == Filter(s.otps, OtherPair(req.email, EmailVerification))
  {
    if ExistsByEmail(s.users, req.email) then Step(Rejected(EmailTaken), s)
    else
      var u := LocalUser(req, enc);
      var users' := Save(s.users, u);
      var issued := GenerateAndSaveOtp(s.otps, u.email, EmailVerification, now, draw);
      Step(Ok(()), AuthState(users', issued.ledger))
  }

  /**
   * `authenticateUser`. Only a LOCAL row is found; an unverified row is
   * refused before the password is looked at; a match yields a token whose
   * subject is the login email. Nothing is stored.
   */
  function AuthenticateUser(s: AuthState, req: LoginRequest, enc: PasswordEncoder): (r: Outcome<Session>)
    requires ValidLogin(req)
    ensures r == Raised(UserNotFound) <==> FindByLocalEmail(s.users, req.email).None?
    ensures r == Raised(EmailNotVerified) <==> FindByLocalEmail(s.users, req.email).Some? && !s.users[req.email].emailVerified
    ensures r.Ok? ==>
      && req.email in s.users && r.value.user == s.users[req.email]
      && r.value.user.provider == Local && r.value.user.emailVerified
      && r.value.user.password.Some? && enc.matches(req.password, r.value.user.password.value)
      && r.value.token == Token(req.email)
    ensures FindByLocalEmail(s.users, req.email).Some? && s.users[req.email].emailVerified ==>
      (r == Ok(Session(Token(req.email), s.users[req.email])) <==>
         s.users[req.email].password.Some? && enc.matches(req.password, s.users[req.email].password.value))
    ensures FindByLocalEmail(s.users, req.email).Some? && s.users[req.email].emailVerified ==>
      (r == Raised(BadCredentials) <==>
         s.users[req.email].password.None? || !enc.matches(req.password, s.users[req.email].password.value))
    ensures !r.Rejected?
  {
    match FindByLocalEmail(s.users, req.email)
    case None => Raised(UserNotFound)
    case Some(u) =>
      if !u.emailVerified then Raised(EmailNotVerified)
      else if u.password.None? || !enc.matches(req.password, u.password.value) then Raised(BadCredentials)
      else Ok(Session(Token(req.email), u))
  }

  /**
   * `verifyEmail`. A refused code answers failure with nothing changed. An
   * accepted code with no row for the email raises, and the transaction
   * undoes the consumption. Otherwise the code is consumed and the row
   * marked verified; the welcome mail's failure is swallowed.
   */
  function VerifyEmail(s: AuthState, req: OtpVerificationRequest, now: Time, welcomeSent: bool): (r: Step<()>)
    requires ValidOtpVerification(req)
    requires AtMostOneUnconsumed(s.otps, req.email, req.otp, EmailVerification)
    ensures !VerifyOtp(s.otps, req.email, req.otp, EmailVerification, now).accepted ==>
      r == Step(Rejected(InvalidOrExpiredOtp), s)
    ensures VerifyOtp(s.otps, req.email, req.otp, EmailVerification, now).accepted && req.email !in s.users ==>
      r == Step(Raised(UserNotFound), s)
    ensures VerifyOtp(s.otps, req.email, req.otp, EmailVerification, now).accepted && req.email in s.users ==>
      r.outcome == Ok(())
    ensures r.outcome.Ok? ==>
      && VerifyOtp(s.otps, req.email, req.otp, EmailVerification, now).accepted
      && req.email in s.users
      && r.state.otps == VerifyOtp(s.otps, req.email, req.otp, EmailVerification, now).ledger
      && (KeyedByEmail(s.users) ==> r.state.users == s.users[req.email := s.users[req.email].(emailVerified := true)])
  {
    var v := VerifyOtp(s.otps, req.email, req.otp, EmailVerification, now);
    if !v.accepted then Step(Rejected(InvalidOrExpiredOtp), s)
    else
      match FindByEmail(s.users, req.email)
      case None => Step(Raised(UserNotFound), s)
      case Some(u) => Step(Ok(()), AuthState(Save(s.users, u.(emailVerified := true)), v.ledger))
  }

  /**
   * `sendPasswordResetOtp`. Needs a LOCAL row. The new PASSWORD_RESET code
   * replaces the email's earlier one and is committed before the mail is
   * sent; a mail failure escapes but the code stays stored.
   */
  function SendPasswordResetOtp(s: AuthState, req: EmailRequest, now: Time, draw: int, mailSent: bool): (r: Step<()>)
    requires ValidEmailRequest(req)
    requires 0 <= draw < CodeSpan
    ensures FindByLocalEmail(s.users, req.email).None? ==> r == Step(Raised(UserNotFound), s)
    ensures KeyedByEmail(s.users) && FindByLocalEmail(s.users, req.email).Some? ==>
      && r.outcome == (if mailSent then Ok(()) else Raised(MailNotSent))
      && r.state.users == s.users
      && Filter(r.state.otps, PairTest(req.email, PasswordReset)) == [CodeRow(req.email, PasswordReset, now, draw)]
      && Filter(r.state.otps, OtherPair(req.email, PasswordReset)) == Filter(s.otps, OtherPair(req.email, PasswordReset))
  {
    match FindByLocalEmail(s.users, req.email)
    case None => Step(Raised(UserNotFound), s)
    case Some(u) =>
      var issued := GenerateAndSaveOtp(s.otps, u.email, PasswordReset, now, draw);
      var s' := s.(otps := issued.ledger);
      if mailSent then Step(Ok(()), s') else Step(Raised(MailNotSent), s')
  }

  /**
   * `resetPassword`. The code is checked before the row is looked up. A
   * refused code answers failure with nothing changed; an accepted code
   * without a LOCAL row raises and the consumption is undone; otherwise the
   * code is consumed and the password replaced by the encoded new one.
   */
  function ResetPassword(s: AuthState, req: PasswordResetRequest, now: Time, enc: PasswordEncoder): (r: Step<()>)
    requires ValidPasswordReset(req)
    requires AtMostOneUnconsumed(s.otps, req.email, req.otp, PasswordReset)
    ensures !VerifyOtp(s.otps, req.email, req.otp, PasswordReset, now).accepted ==>
      r == Step(Rejected(InvalidOrExpiredOtp), s)
    ensures VerifyOtp(s.otps, req.email, req.otp, PasswordReset, now).accepted && FindByLocalEmail(s.users, req.email).None? ==>
      r == Step(Raised(UserNotFound), s)
    ensures VerifyOtp(s.otps, req.email, req.otp, PasswordReset, now).accepted && FindByLocalEmail(s.users, req.email).Some? ==>
      r.outcome == Ok(())
    ensures r.outcome.Ok? ==>
      && FindByLocalEmail(s.users, req.email).Some?
      && r.state.otps == VerifyOtp(s.otps, req.email, req.otp, PasswordReset, now).ledger
      && (KeyedByEmail(s.users) ==>
            r.state.users == s.users[req.email := s.users[req.email].(password := Some(enc.encode(req.newPassword)))])
  {
    var v := VerifyOtp(s.otps, req.email, req.otp, PasswordReset, now);
    if !v.accepted then Step(Rejected(InvalidOrExpiredOtp), s)
    else
      match FindByLocalEmail(s.users, req.email)
      case None => Step(Raised(UserNotFound), s)
      case Some(u) => Step(Ok(()), AuthState(Save(s.users, u.(password := Some(enc.encode(req.newPassword)))), v.ledger))
  }

  /**
   * `resendVerificationOtp`. Any provider's row is found. An already
   * verified row answers failure with no new code; otherwise a new
   * EMAIL_VERIFICATION code replaces the earlier one, and a mail failure
   * escapes after the code is stored.
   */
  function ResendVerificationOtp(s: AuthState, req: EmailRequest, now: Time, draw: int, mailSent: bool): (r: Step<()>)
    requires ValidEmailRequest(req)
    requires 0 <= draw < CodeSpan
    ensures req.email !in s.users ==> r == Step(Raised(UserNotFound), s)
    ensures req.email in s.users && s.users[req.email].emailVerified ==> r == Step(Rejected(AlreadyVerified), s)
    ensures KeyedByEmail(s.users) && req.email in s.users && !s.users[req.email].emailVerified ==>
      && r.outcome == (if mailSent then Ok(()) else Raised(MailNotSent))
      && r.state.users == s.users
      && Filter(r.state.otps, PairTest(req.email, EmailVerification)) == [CodeRow(req.email, EmailVerification, now, draw)]
      && Filter(r.state.otps, OtherPair(req.email, EmailVerification)) == Filter(s.otps, OtherPair(req.email, EmailVerification))
  {
    match FindByEmail(s.users, req.email)
    case None => Step(Raised(UserNotFound), s)
    case Some(u) =>
      if u.emailVerified then Step(Rejected(AlreadyVerified), s)
      else
        var issued := GenerateAndSaveOtp(s.otps, u.email, EmailVerification, now, draw);
        var s' := s.(otps := issued.ledger);
        if mailSent then Step(Ok(()), s') else Step(Raised(MailNotSent), s')
  }

  /** The federated login, issuing a token for the reconciled row. */
  function FederatedLogin(s: AuthState, registrationId: string, a: Attributes): (r: Step<Token>)
    ensures registrationId != "google" ==> r == Step(Raised(UnsupportedProvider), s)
    ensures r.state.otps == s.otps
    ensures KeyedByEmail(s.users) && registrationId == "google" ==>
      && r.outcome == Ok(Token(a.email))
      && r.state.users == ProcessGoogleUser(s.users, a).users
  {
    match OnAuthenticationSuccess(registrationId, s.users, a)
    case Ok(login) => Step(Ok(login.token), s.(users := login.users))
    case Rejected(e) => Step(Rejected(e), s)
    case Raised(e) => Step(Raised(e), s)
  }

  /* ---------------- the invariant ---------------- */

  lemma RegisterKeepsConsistent(s: AuthState, req: SignupRequest, enc: PasswordEncoder, now: Time, draw: int, mailSent: bool)
    requires Consistent(s) && ValidSignup(req) && 0 <= draw < CodeSpan
    ensures Consistent(RegisterUser(s, req, enc, now, draw, mailSent).state)
  {
    GeneratePreservesOnePerPair(s.otps, req.email, EmailVerification, now, draw);
  }

  lemma VerifyEmailKeepsConsistent(s: AuthState, req: OtpVerificationRequest, now: Time, welcomeSent: bool)
    requires Consistent(s) && ValidOtpVerification(req)
    ensures AtMostOneUnconsumed(s.otps, req.email, req.otp, EmailVerification)
    ensures Consistent(VerifyEmail(s, req, now, welcomeSent).state)
  {
    VerifyPreservesOnePerPair(s.otps, req.email, req.otp, EmailVerification, now);
  }

  lemma SendResetKeepsConsistent(s: AuthState, req: EmailRequest, now: Time, draw: int, mailSent: bool)
    requires Consistent(s) && ValidEmailRequest(req) && 0 <= draw < CodeSpan
    ensures Consistent(SendPasswordResetOtp(s, req, now, draw, mailSent).state)
  {
    GeneratePreservesOnePerPair(s.otps, req.email, PasswordReset, now, draw);
  }

  lemma ResetKeepsConsistent(s: AuthState, req: PasswordResetRequest, now: Time, enc: PasswordEncoder)
    requires Consistent(s) && ValidPasswordReset(req)
    ensures AtMostOneUnconsumed(s.otps, req.email, req.otp, PasswordReset)
    ensures Consistent(ResetPassword(s, req, now, enc).state)
  {
    VerifyPreservesOnePerPair(s.otps, req.email, req.otp, PasswordReset, now);
  }

  lemma ResendKeepsConsistent(s: AuthState, req: EmailRequest, now: Time, draw: int, mailSent: bool)
    requires Consistent(s) && ValidEmailRequest(req) && 0 <= draw < CodeSpan
    ensures Consistent(ResendVerificationOtp(s, req, now, draw, mailSent).state)
  {
    GeneratePreservesOnePerPair(s.otps, req.email, EmailVerification, now, draw);
  }

  lemma FederatedLoginKeepsConsistent(s: AuthState, registrationId: string, a: Attributes)
    requires Consistent(s)
    ensures Consistent(FederatedLogin(s, registrationId, a).state)
  {
  }

  lemma SweepKeepsConsistent(s: AuthState, now: Time)
    requires Consistent(s)
    ensures Consistent(s.(otps := CleanupExpiredOtps(s.otps, now)))
  {
    CleanupPreservesOnePerPair(s.otps, now);
  }

  /* ---------------- properties of the flows ---------------- */

  /** Mail failures never change what registration and verification answer or store. */
  lemma SwallowedMailFailures(s: AuthState, sr: SignupRequest, vr: OtpVerificationRequest, enc: PasswordEncoder, now: Time, draw: int)
    requires ValidSignup(sr) && ValidOtpVerification(vr) && 0 <= draw < CodeSpan
    requires AtMostOneUnconsumed(s.otps, vr.email, vr.otp, EmailVerification)
    ensures RegisterUser(s, sr, enc, now, draw, true) == RegisterUser(s, sr, enc, now, draw, false)
    ensures VerifyEmail(s, vr, now, true) == VerifyEmail(s, vr, now, false)
  {
  }

  /** An unverified LOCAL row is refused whatever password is offered. */
  lemma UnverifiedRefusedBeforePassword(s: AuthState, email: string, p1: string, p2: string, enc: PasswordEncoder)
    requires ValidLogin(LoginRequest(email, p1)) && ValidLogin(LoginRequest(email, p2))
    requires FindByLocalEmail(s.users, email).Some? && !s.users[email].emailVerified
    ensures AuthenticateUser(s, LoginRequest(email, p1), enc) == Raised(EmailNotVerified)
    ensures AuthenticateUser(s, LoginRequest(email, p2), enc) == Raised(EmailNotVerified)
  {
  }

  /**
   * Once a LOCAL account signs in with Google it becomes a GOOGLE row, and
   * because login and forgot-password look only for LOCAL rows, password
   * login and the reset flow answer "User not found" from then on, although
   * the stored password hash is kept.
   */
  lemma {:induction false} GoogleUpgradeLocksOutPassword(s: AuthState, a: Attributes, password: string, enc: PasswordEncoder, now: Time, draw: int, mailSent: bool)
    requires Consistent(s)
    requires a.email in s.users && s.users[a.email].provider == Local
    requires ValidLogin(LoginRequest(a.email, password)) && 0 <= draw < CodeSpan
    ensures var s' := FederatedLogin(s, "google", a).state;
      && s'.users[a.email].password == s.users[a.email].password
      && s'.users[a.email].provider == Google
      && AuthenticateUser(s', LoginRequest(a.email, password), enc) == Raised(UserNotFound)
      && SendPasswordResetOtp(s', EmailRequest(a.email), now, draw, mailSent) == Step(Raised(UserNotFound), s')
  {
    ExistingEmailIsMerged(s.users, a);
  }

  /** A PASSWORD_RESET code cannot verify an email address. */
  lemma ResetCodeCannotVerifyEmail(s: AuthState, req: OtpVerificationRequest, now: Time, welcomeSent: bool)
    requires ValidOtpVerification(req)
    requires forall i :: 0 <= i < |s.otps| && s.otps[i].email == req.email && s.otps[i].code == req.otp ==>
      s.otps[i].kind == PasswordReset
    ensures AtMostOneUnconsumed(s.otps, req.email, req.otp, EmailVerification)
    ensures VerifyEmail(s, req, now, welcomeSent) == Step(Rejected(InvalidOrExpiredOtp), s)
  {
  }

  /** An EMAIL_VERIFICATION code cannot reset a password. */
  lemma VerificationCodeCannotResetPassword(s: AuthState, req: PasswordResetRequest, now: Time, enc: PasswordEncoder)
    requires ValidPasswordReset(req)
    requires forall i :: 0 <= i < |s.otps| && s.otps[i].email == req.email && s.otps[i].code == req.otp ==>
      s.otps[i].kind == EmailVerification
    ensures AtMostOneUnconsumed(s.otps, req.email, req.otp, PasswordReset)
    ensures ResetPassword(s, req, now, enc) == Step(Rejected(InvalidOrExpiredOtp), s)
  {
  }

  /** Resending for a verified row answers failure and generates nothing. */
  lemma ResendForVerifiedDoesNothing(s: AuthState, req: EmailRequest, now: Time, draw: int, mailSent: bool)
    requires ValidEmailRequest(req) && 0 <= draw < CodeSpan
    requires req.email in s.users && s.users[req.email].emailVerified
    ensures ResendVerificationOtp(s, req, now, draw, mailSent) == Step(Rejected(AlreadyVerified), s)
  {
  }

  /**
   * Registration, then verification with the mailed code, then login: the
   * code is accepted within ten minutes, the row becomes verified, the right
   * password gets a token for the email and a wrong one is refused.
   */
  lemma {:induction false} RegisterVerifyLoginScenario(
    s: AuthState, req: SignupRequest, enc: PasswordEncoder, now: Time, draw: int, t: Time, wrong: string)
    requires Consistent(s) && ValidSignup(req) && 0 <= draw < CodeSpan
    requires req.email !in s.users
    requires now <= t <= now + 10 * SecondsPerMinute
    requires forall p :: enc.matches(p, enc.encode(p))
    requires ValidLogin(LoginRequest(req.email, wrong)) && !enc.matches(wrong, enc.encode(req.password))
    ensures var s1 := RegisterUser(s, req, enc, now, draw, false).state;
      var code := GenerateOtp(draw);
      && ValidOtpVerification(OtpVerificationRequest(req.email, code))
      && AtMostOneUnconsumed(s1.otps, req.email, code, EmailVerification)
      && var s2 := VerifyEmail(s1, OtpVerificationRequest(req.email, code), t, false);
      && s2.outcome == Ok(())
      && s2.state.users[req.email].emailVerified
      && AuthenticateUser(s2.state, LoginRequest(req.email, req.password), enc).Ok?
      && AuthenticateUser(s2.state, LoginRequest(req.email, req.password), enc).value.token == Token(req.email)
      && AuthenticateUser(s2.state, LoginRequest(req.email, wrong), enc) == Raised(BadCredentials)
  {
    var s1 := RegisterUser(s, req, enc, now, draw, false).state;
    var code := GenerateOtp(draw);
    assert code[0] != ' ';
    assert ValidOtpVerification(OtpVerificationRequest(req.email, code));
    PairRowsAfterGenerate(s.otps, req.email, EmailVerification, now, draw, code);
    assert VerifyOtp(s1.otps, req.email, code, EmailVerification, t).accepted;
    RegisterKeepsConsistent(s, req, enc, now, draw, false);
    assert s1.users[req.email] == LocalUser(req, enc);
    SignupPasswordLogsIn(req);
  }

  /**
   * Login is the partner of registration and verification: a freshly
   * registered row refuses every password until it is verified, and once
   * any accepted code verifies it, exactly the passwords that match the
   * stored hash of the signup password log in.
   */
  lemma {:induction false} RegisteredPasswordLogsIn(
    s: AuthState, req: SignupRequest, enc: PasswordEncoder, now: Time, draw: int, mailSent: bool,
    vr: OtpVerificationRequest, t: Time, welcomeSent: bool, p: string)
    requires Consistent(s) && ValidSignup(req) && 0 <= draw < CodeSpan && req.email !in s.users
    requires ValidOtpVerification(vr) && vr.email == req.email
    requires ValidLogin(LoginRequest(req.email, p))
    ensures var s1 := RegisterUser(s, req, enc, now, draw, mailSent).state;
      && AuthenticateUser(s1, LoginRequest(req.email, p), enc) == Raised(EmailNotVerified)
      && AtMostOneUnconsumed(s1.otps, vr.email, vr.otp, EmailVerification)
      && var s2 := VerifyEmail(s1, vr, t, welcomeSent);
      && (s2.outcome.Ok? <==> VerifyOtp(s1.otps, vr.email, vr.otp, EmailVerification, t).accepted)
      && (s2.outcome.Ok? ==>
            (AuthenticateUser(s2.state, LoginRequest(req.email, p), enc) == Ok(Session(Token(req.email), s2.state.users[req.email])) <==>
               enc.matches(p, enc.encode(req.password))))
  {
    var s1 := RegisterUser(s, req, enc, now, draw, mailSent).state;
    RegisterKeepsConsistent(s, req, enc, now, draw, mailSent);
    VerifyEmailKeepsConsistent(s1, vr, t, welcomeSent);
    var s2 := VerifyEmail(s1, vr, t, welcomeSent);
    if s2.outcome.Ok? {
      assert s2.state.users[req.email] == LocalUser(req, enc).(emailVerified := true);
    }
  }

  /**
   * Every code the service mails passes the validation of the requests that
   * bring it back, so the verify-email and reset-password flows can be
   * reached with it.
   */
  lemma GeneratedCodePassesValidation(email: string, draw: int, newPassword: string)
    requires NotBlank(email) && 0 <= draw < CodeSpan
    ensures ValidOtpVerification(OtpVerificationRequest(email, GenerateOtp(draw)))
    ensures NotBlank(newPassword) && SizeWithin(newPassword, 6, 40) ==>
      ValidPasswordReset(PasswordResetRequest(email, GenerateOtp(draw), newPassword))
  {
    var code := GenerateOtp(draw);
    assert code[0] != ' ';
  }

  /**
   * Two forgot-password requests in a row: the first code no longer resets
   * the password (unless the draws produced the same code), the second does
   * and stores the encoded new password.
   */
  lemma {:induction false} ForgotTwiceScenario(
    s: AuthState, email: string, enc: PasswordEncoder, now1: Time, d1: int, now2: Time, d2: int, t: Time, newPassword: string)
    requires Consistent(s)
    requires FindByLocalEmail(s.users, email).Some?
    requires ValidEmailRequest(EmailRequest(email)) && 0 <= d1 < CodeSpan && 0 <= d2 < CodeSpan && d1 != d2
    requires now2 <= t <= now2 + 10 * SecondsPerMinute
    requires ValidPasswordReset(PasswordResetRequest(email, GenerateOtp(d1), newPassword))
    requires ValidPasswordReset(PasswordResetRequest(email, GenerateOtp(d2), newPassword))
    ensures var s1 := SendPasswordResetOtp(s, EmailRequest(email), now1, d1, true).state;
      var s2 := SendPasswordResetOtp(s1, EmailRequest(email), now2, d2, true).state;
      var c1 := GenerateOtp(d1);
      var c2 := GenerateOtp(d2);
      && c1 != c2
      && AtMostOneUnconsumed(s2.otps, email, c1, PasswordReset)
      && AtMostOneUnconsumed(s2.otps, email, c2, PasswordReset)
      && ResetPassword(s2, PasswordResetRequest(email, c1, newPassword), t, enc) == Step(Rejected(InvalidOrExpiredOtp), s2)
      && ResetPassword(s2, PasswordResetRequest(email, c2, newPassword), t, enc).outcome == Ok(())
      && ResetPassword(s2, PasswordResetRequest(email, c2, newPassword), t, enc).state.users[email].password
         == Some(enc.encode(newPassword))
  {
    var s1 := SendPasswordResetOtp(s, EmailRequest(email), now1, d1, true).state;
    var s2 := SendPasswordResetOtp(s1, EmailRequest(email), now2, d2, true).state;
    var c1 := GenerateOtp(d1);
    var c2 := GenerateOtp(d2);
    assert DecimalValue(c1) != DecimalValue(c2);
    assert s1.users == s.users;
    PairRowsAfterGenerate(s1.otps, email, PasswordReset, now2, d2, c1);
    PairRowsAfterGenerate(s1.otps, email, PasswordReset, now2, d2, c2);
  }
}

=== FILE: common.dfy ===
/**
 * Shared vocabulary of the model: optional values, flow outcomes, the error
 * taxonomy, the time line, and the generic sequence operations (filtering,
 * counting, ordering, substring search) that the repositories and the
 * client-side filters are built from.
 */
module Common {

  /** A value that may be absent; stands for Java's null and Optional. */
  datatype Option<T> = None | Some(value: T)

  /** Why a flow did not complete. */
  datatype Failure =
    | EmailTaken
    | UserNotFound
    | EmailNotVerified
    | BadCredentials
    | InvalidOrExpiredOtp
    | AlreadyVerified
    | MailNotSent
    | UnsupportedProvider
    | ItemNotFound
    | MissingName
    | ConstraintViolation
    | InvalidStartDate
    | InvalidEndDate

  /**
   * The result of a flow. `Rejected` is a response that reports failure
   * (a message response with success = false, a bad-request reply);
   * `Raised` is an exception that escapes the operation.
   */
  datatype Outcome<T> = Ok(value: T) | Rejected(reason: Failure) | Raised(reason: Failure)

  /** A point on the local time line, in whole seconds. */
  type Time = int

  const SecondsPerMinute: int := 60
  const SecondsPerDay: int := 86400

  /** `LocalDate.atStartOfDay` for the day numbered `day`. */
  function StartOfDay(day: int): Time
  {
    day * SecondsPerDay
  }

  /** `LocalDate.atTime(23, 59, 59)` for the day numbered `day`. */
  function EndOfDay(day: int): Time
  {
    day * SecondsPerDay + 23 * 3600 + 59 * 60 + 59
  }

  /** `LocalDateTime.toLocalDate`: the day a time falls on. */
  function ToLocalDate(t: Time): int
  {
    t / SecondsPerDay
  }

  lemma DayBoundsRoundTrip(day: int)
    ensures ToLocalDate(StartOfDay(day)) == day
    ensures ToLocalDate(EndOfDay(day)) == day
    ensures StartOfDay(day) < EndOfDay(day) < StartOfDay(day + 1)
  {
  }

  /**
   * Java's `s.trim().isEmpty()`: trim strips every character up to and
   * including U+0020, so a string is blank when it holds nothing else.
   */
  predicate IsBlank(s: string)
  {
    forall i :: 0 <= i < |s| ==> s[i] <= ' '
  }

  /** The UTF-16 code units a character takes: two above the Basic Multilingual Plane. */
  function Utf16Units(c: char): nat
  {
    if c as int >= 0x1_0000 then 2 else 1
  }

  /**
   * Java's `String.length()`: the number of UTF-16 code units, which is
   * what `@Size` bounds. It lies between the character count and twice it.
   */
  function Utf16Length(s: string): (n: nat)
    ensures |s| <= n <= 2 * |s|
    ensures (forall i :: 0 <= i < |s| ==> s[i] as int < 0x1_0000) ==> n == |s|
    ensures (forall i :: 0 <= i < |s| ==> s[i] as int >= 0x1_0000) ==> n == 2 * |s|
  {
    if |s| == 0 then 0 else Utf16Units(s[0]) + Utf16Length(s[1..])
  }

  /* ---------------- filtering ---------------- */

  /** `a` is `b` with some elements left out, the rest in their order. */
  ghost predicate Subsequence<T>(a: seq<T>, b: seq<T>)
    decreases |b|
  {
    if |a| == 0 then true
    else if |b| == 0 then false
    else (a[0] == b[0] && Subsequence(a[1..], b[1..])) || Subsequence(a, b[1..])
  }

  /** A sub-list of a sub-list (or of the list itself) is a sub-list. */
  lemma {:induction false} SubsequenceTransitive<T>(a: seq<T>, b: seq<T>, c: seq<T>)
    requires Subsequence(a, b) && (Subsequence(b, c) || b == c)
    ensures Subsequence(a, c)
    decreases |c|
  {
    if b == c || |a| == 0 {
    } else if |b| == 0 {
    } else {
      assert |c| > 0;
      if b[0] == c[0] && Subsequence(b[1..], c[1..]) {
        if a[0] == b[0] && Subsequence(a[1..], b[1..]) {
          SubsequenceTransitive(a[1..], b[1..], c[1..]);
        } else {
          SubsequenceTransitive(a, b[1..], c[1..]);
        }
      } else {
        SubsequenceTransitive(a, b, c[1..]);
      }
    }
  }

  /** A sub-list holds only elements of the list. */
  lemma {:induction false} SubsequenceMembers<T>(a: seq<T>, b: seq<T>)
    requires Subsequence(a, b)
    ensures forall x :: x in a ==> x in b
    decreases |b|
  {
    if |a| > 0 && |b| > 0 {
      if a[0] == b[0] && Subsequence(a[1..], b[1..]) {
        SubsequenceMembers(a[1..], b[1..]);
        assert forall x :: x in a ==> x == a[0] || x in a[1..];
      } else {
        SubsequenceMembers(a, b[1..]);
      }
    }
  }

  /** The elements of `s` that satisfy `p`, in order. */
  function Filter<T(!new)>(s: seq<T>, p: T -> bool): (r: seq<T>)
    ensures |r| <= |s|
    ensures forall x :: x in r <==> x in s && p(x)
    ensures forall x :: p(x) ==> multiset(r)[x] == multiset(s)[x]
    ensures forall x :: !p(x) ==> multiset(r)[x] == 0
    ensures Subsequence(r, s)
    decreases |s|
  {
    if |s| == 0 then []
    else
      assert s == [s[0]] + s[1..];
      var rest := Filter(s[1..], p);
      if p(s[0]) then
        assert ([s[0]] + rest)[1..] == rest;
        [s[0]] + rest
      else rest
  }

  lemma {:induction false} FilterConcat<T(!new)>(a: seq<T>, b: seq<T>, p: T -> bool)
    ensures Filter(a + b, p) == Filter(a, p) + Filter(b, p)
    decreases |a|
  {
    if |a| == 0 {
      assert a + b == b;
    } else {
      assert (a + b)[0] == a[0];
      assert (a + b)[1..] == a[1..] + b;
      FilterConcat(a[1..], b, p);
    }
  }

  lemma {:induction false} FilterAllPass<T(!new)>(s: seq<T>, p: T -> bool)
    requires forall i :: 0 <= i < |s| ==> p(s[i])
    ensures Filter(s, p) == s
    decreases |s|
  {
    if |s| > 0 {
      FilterAllPass(s[1..], p);
    }
  }

  lemma {:induction false} FilterNonePass<T(!new)>(s: seq<T>, p: T -> bool)
    requires forall i :: 0 <= i < |s| ==> !p(s[i])
    ensures Filter(s, p) == []
    decreases |s|
  {
    if |s| > 0 {
      FilterNonePass(s[1..], p);
    }
  }

  /** Filtering by `p` and then by `q` is filtering once by their conjunction. */
  lemma {:induction false} FilterFilter<T(!new)>(s: seq<T>, p: T -> bool, q: T -> bool, pq: T -> bool)
    requires forall x :: pq(x) == (p(x) && q(x))
    ensures Filter(Filter(s, p), q) == Filter(s, pq)
    decreases |s|
  {
    if |s| > 0 {
      FilterFilter(s[1..], p, q, pq);
      if p(s[0]) {
        assert Filter(s, p) == [s[0]] + Filter(s[1..], p);
        assert Filter(s, p)[1..] == Filter(s[1..], p);
      }
    }
  }

  /** Filtering with two tests that agree on `s` gives the same result. */
  lemma {:induction false} FilterCongruent<T(!new)>(s: seq<T>, p: T -> bool, q: T -> bool)
    requires forall i :: 0 <= i < |s| ==> p(s[i]) == q(s[i])
    ensures Filter(s, p) == Filter(s, q)
    decreases |s|
  {
    if |s| > 0 {
      FilterCongruent(s[1..], p, q);
    }
  }

  /** The number of elements of `s` that satisfy `p`, as SQL's COUNT. */
  function CountWhere<T>(s: seq<T>, p: T -> bool): nat
    decreases |s|
  {
    if |s| == 0 then 0
    else (if p(s[0]) then 1 else 0) + CountWhere(s[1..], p)
  }

  lemma {:induction false} CountIsFilterLength<T(!new)>(s: seq<T>, p: T -> bool)
    ensures CountWhere(s, p) == |Filter(s, p)|
    decreases |s|
  {
    if |s| > 0 {
      CountIsFilterLength(s[1..], p);
    }
  }

  /** Filters of two rearrangements of one sequence hold the same elements. */
  lemma FilterPermutation<T(!new)>(a: seq<T>, b: seq<T>, p: T -> bool)
    requires multiset(a) == multiset(b)
    ensures multiset(Filter(a, p)) == multiset(Filter(b, p))
    ensures |Filter(a, p)| == |Filter(b, p)|
  {
    var fa, fb := Filter(a, p), Filter(b, p);
    forall x
      ensures multiset(fa)[x] == multiset(fb)[x]
    {
      if p(x) {
        assert multiset(fa)[x] == multiset(a)[x];
      }
    }
    assert multiset(fa) == multiset(fb);
    assert |fa| == |multiset(fa)| == |multiset(fb)| == |fb|;
  }

  /** The sum of `f` over `s`, as SQL's SUM and JavaScript's `reduce`. */
  function SumOf<T>(s: seq<T>, f: T -> int): int
    decreases |s|
  {
    if |s| == 0 then 0 else f(s[0]) + SumOf(s[1..], f)
  }

  lemma {:induction false} SumOfConcat<T>(a: seq<T>, b: seq<T>, f: T -> int)
    ensures SumOf(a + b, f) == SumOf(a, f) + SumOf(b, f)
    decreases |a|
  {
    if |a| == 0 {
      assert a + b == b;
    } else {
      assert (a + b)[0] == a[0];
      assert (a + b)[1..] == a[1..] + b;
      SumOfConcat(a[1..], b, f);
    }
  }

  /** Taking one element out of a sequence takes its term out of the sum. */
  lemma SumOfRemove<T>(b: seq<T>, k: int, f: T -> int)
    requires 0 <= k < |b|
    ensures SumOf(b, f) == f(b[k]) + SumOf(b[..k] + b[k + 1..], f)
  {
    assert b == b[..k] + ([b[k]] + b[k + 1..]);
    SumOfConcat(b[..k], [b[k]] + b[k + 1..], f);
    assert ([b[k]] + b[k + 1..])[1..] == b[k + 1..];
    SumOfConcat(b[..k], b[k + 1..], f);
  }

  /** A sum does not depend on the order of the summands. */
  lemma {:induction false} SumOfPermutation<T>(a: seq<T>, b: seq<T>, f: T -> int)
    requires multiset(a) == multiset(b)
    ensures SumOf(a, f) == SumOf(b, f)
    decreases |a|
  {
    if |a| == 0 {
      assert |b| == |multiset(b)| == 0;
    } else {
      var x := a[0];
      assert x in multiset(b);
      var k :| 0 <= k < |b| && b[k] == x;
      var rest := b[..k] + b[k + 1..];
      assert b == b[..k] + [x] + b[k + 1..];
      assert multiset(rest) == multiset(b) - multiset{x};
      assert a == [x] + a[1..];
      assert multiset(a[1..]) == multiset(rest);
      SumOfPermutation(a[1..], rest, f);
      SumOfRemove(b, k, f);
    }
  }

  /** Leaving out elements that contribute nothing does not change a sum. */
  lemma {:induction false} SumOfFilterDropsZeros<T(!new)>(s: seq<T>, p: T -> bool, f: T -> int)
    requires forall i :: 0 <= i < |s| && !p(s[i]) ==> f(s[i]) == 0
    ensures SumOf(Filter(s, p), f) == SumOf(s, f)
    decreases |s|
  {
    if |s| > 0 {
      SumOfFilterDropsZeros(s[1..], p, f);
      if p(s[0]) {
        assert Filter(s, p) == [s[0]] + Filter(s[1..], p);
        assert Filter(s, p)[1..] == Filter(s[1..], p);
      }
    }
  }

  /** With no negative term, leaving elements out never raises a sum. */
  lemma {:induction false} SumOfFilterAtMost<T(!new)>(s: seq<T>, p: T -> bool, f: T -> int)
    requires forall i :: 0 <= i < |s| ==> f(s[i]) >= 0
    ensures SumOf(Filter(s, p), f) <= SumOf(s, f)
    decreases |s|
  {
    if |s| > 0 {
      SumOfFilterAtMost(s[1..], p, f);
      if p(s[0]) {
        assert Filter(s, p) == [s[0]] + Filter(s[1..], p);
        assert Filter(s, p)[1..] == Filter(s[1..], p);
      }
    }
  }

  /** Summing non-negative terms gives a non-negative total. */
  lemma {:induction false} SumOfNonNegative<T>(s: seq<T>, f: T -> int)
    requires forall i :: 0 <= i < |s| ==> f(s[i]) >= 0
    ensures SumOf(s, f) >= 0
    decreases |s|
  {
    if |s| > 0 {
      SumOfNonNegative(s[1..], f);
    }
  }

  /* ---------------- ordering ---------------- */

  /** Non-increasing by `key`, as an ORDER BY … DESC leaves a result. */
  ghost predicate SortedDesc<T>(s: seq<T>, key: T -> int)
  {
    forall i, j :: 0 <= i < j < |s| ==> key(s[i]) >= key(s[j])
  }

  function InsertDesc<T>(x: T, s: seq<T>, key: T -> int): (r: seq<T>)
    requires SortedDesc(s, key)
    ensures multiset(r) == multiset(s) + multiset{x}
    ensures SortedDesc(r, key)
    decreases |s|
  {
    if |s| == 0 then [x]
    else if key(x) >= key(s[0]) then [x] + s
    else
      assert s == [s[0]] + s[1..];
      var rest := InsertDesc(x, s[1..], key);
      assert forall j :: 0 <= j < |rest| ==> key(s[0]) >= key(rest[j]) by {
        forall j | 0 <= j < |rest|
          ensures key(s[0]) >= key(rest[j])
        {
          assert rest[j] in multiset(rest);
          if rest[j] != x {
            assert rest[j] in multiset(s[1..]);
            var k :| 0 <= k < |s[1..]| && s[1..][k] == rest[j];
            assert s[k + 1] == rest[j];
          }
        }
      }
      [s[0]] + rest
  }

  /** A rearrangement of `s` ordered by `key`, largest first. */
  function SortDesc<T>(s: seq<T>, key: T -> int): (r: seq<T>)
    ensures multiset(r) == multiset(s)
    ensures |r| == |s|
    ensures SortedDesc(r, key)
    decreases |s|
  {
    if |s| == 0 then []
    else
      assert s == [s[0]] + s[1..];
      var r := InsertDesc(s[0], SortDesc(s[1..], key), key);
      assert |r| == |multiset(r)| == |multiset(s)| == |s|;
      r
  }

  /* ---------------- text ---------------- */

  /** ASCII case folding, the part of `toLowerCase` the model keeps. */
  function LowerChar(c: char): char
  {
    if 'A' <= c <= 'Z' then (c as int + 32) as char else c
  }

  function Lower(s: string): (r: string)
    ensures |r| == |s|
    ensures forall i :: 0 <= i < |s| ==> r[i] == LowerChar(s[i])
  {
    seq(|s|, i requires 0 <= i < |s| => LowerChar(s[i]))
  }

  /** `t` occurs in `s` starting at position `i`. */
  ghost predicate OccursAt(t: string, s: string, i: int)
  {
    0 <= i && i + |t| <= |s| && s[i..i + |t|] == t
  }

  /** `t` occurs in `s` as a contiguous block. */
  ghost predicate OccursIn(t: string, s: string)
  {
    exists i :: OccursAt(t, s, i)
  }

  lemma OccursInTail(t: string, s: string)
    requires |s| > 0
    ensures OccursIn(t, s) <==> t <= s || OccursIn(t, s[1..])
  {
    if OccursIn(t, s[1..]) {
      var i :| OccursAt(t, s[1..], i);
      assert s[1..][i..i + |t|] == s[i + 1..i + 1 + |t|];
      assert OccursAt(t, s, i + 1);
    }
    if t <= s {
      assert OccursAt(t, s, 0);
    }
    if OccursIn(t, s) && !(t <= s) {
      var i :| OccursAt(t, s, i);
      if i == 0 {
        assert s[..|t|] == t;
      } else {
        assert s[1..][i - 1..i - 1 + |t|] == s[i..i + |t|];
        assert OccursAt(t, s[1..], i - 1);
      }
    }
  }

  /** Substring search, as Java's `contains` and JavaScript's `includes`. */
  function Contains(s: string, t: string): (b: bool)
    ensures b <==> OccursIn(t, s)
    decreases |s|
  {
    if t <= s then
      assert OccursAt(t, s, 0);
      true
    else if |s| == 0 then false
    else
      OccursInTail(t, s);
      Contains(s[1..], t)
  }
}

=== FILE: food_item.dfy ===
/**
 * The food item, its declared field constraints, and the per-user queries
 * and aggregates of its repository. The store is the sequence of all rows
 * in insertion order; every query keeps only the rows of one owner (owners
 * are identified by email) and orders them as its ORDER BY clause says.
 */
module Food {
  import opened Common

  datatype FoodItem = FoodItem(
    id: nat,
    owner: string,
    name: string,
    createdAt: Time,
    consumedDate: Option<Time>,
    description: Option<string>,
    calorie: Option<int>,
    quantity: Option<string>)

  const MaxNameLength: int := 100
  const MaxDescriptionLength: int := 500
  const MaxQuantityLength: int := 50

  /**
   * The bean-validation constraints on the entity: a non-blank name of at
   * most 100 UTF-16 units, a description of at most 500, a quantity of at
   * most 50, and a calorie count that is not negative.
   */
  predicate FieldsSatisfyConstraints(name: string, description: Option<string>, calorie: Option<int>, quantity: Option<string>)
  {
    && !IsBlank(name) && Utf16Length(name) <= MaxNameLength
    && (description.Some? ==> Utf16Length(description.value) <= MaxDescriptionLength)
    && (calorie.Some? ==> calorie.value >= 0)
    && (quantity.Some? ==> Utf16Length(quantity.value) <= MaxQuantityLength)
  }

  /** The constraints concern only the user-supplied fields, not the id, owner or times. */
  predicate SatisfiesConstraints(it: FoodItem)
  {
    FieldsSatisfyConstraints(it.name, it.description, it.calorie, it.quantity)
  }

  /* ---------------- row tests and sort keys ---------------- */

  function OwnedBy(owner: string): FoodItem -> bool
  {
    (x: FoodItem) => x.owner == owner
  }

  function CreatedKey(x: FoodItem): int
  {
    x.createdAt
  }

  /** The consumed time; only used on rows that have one. */
  function ConsumedKey(x: FoodItem): int
  {
    if x.consumedDate.Some? then x.consumedDate.value else 0
  }

  /** `item.calorie`, with a missing value counted as 0. */
  function CalorieOrZero(x: FoodItem): int
  {
    if x.calorie.Some? then x.calorie.value else 0
  }

  function OwnedNameContains(owner: string, term: string): FoodItem -> bool
  {
    (x: FoodItem) => x.owner == owner && Contains(Lower(x.name), Lower(term))
  }

  function OwnedConsumedBetween(owner: string, start: Time, end: Time): FoodItem -> bool
  {
    (x: FoodItem) => x.owner == owner && x.consumedDate.Some? && start <= x.consumedDate.value <= end
  }

  function OwnedCreatedSince(owner: string, from: Time): FoodItem -> bool
  {
    (x: FoodItem) => x.owner == owner && x.createdAt >= from
  }

  function OwnedConsumed(owner: string): FoodItem -> bool
  {
    (x: FoodItem) => x.owner == owner && x.consumedDate.Some?
  }

  function OwnedWithCalories(owner: string): FoodItem -> bool
  {
    (x: FoodItem) => x.owner == owner && x.calorie.Some? && x.calorie.value > 0
  }

  function OwnedWithAnyCalorie(owner: string): FoodItem -> bool
  {
    (x: FoodItem) => x.owner == owner && x.calorie.Some?
  }

  /* ---------------- queries ---------------- */

  /** `findByUserOrderByCreatedAtDesc`: all of the owner's rows, newest first. */
  function FindAllByOwner(items: seq<FoodItem>, owner: string): (r: seq<FoodItem>)
    ensures forall x :: x in r <==> x in items && x.owner == owner
    ensures multiset(r) == multiset(Filter(items, OwnedBy(owner)))
    ensures SortedDesc(r, CreatedKey)
  {
    SortDesc(Filter(items, OwnedBy(owner)), CreatedKey)
  }

  /** `findByIdAndUser`: the row with that id, only if the owner owns it. */
  function FindByIdAndOwner(items: seq<FoodItem>, id: nat, owner: string): (r: Option<nat>)
    ensures r.Some? ==> r.value < |items| && items[r.value].id == id && items[r.value].owner == owner
    ensures r.Some? ==> forall k :: 0 <= k < r.value ==> !(items[k].id == id && items[k].owner == owner)
    ensures r.None? <==> forall k :: 0 <= k < |items| ==> !(items[k].id == id && items[k].owner == owner)
    decreases |items|
  {
    if |items| == 0 then None
    else if items[0].id == id && items[0].owner == owner then Some(0)
    else
      match FindByIdAndOwner(items[1..], id, owner)
      case None => None
      case Some(k) => Some(k + 1)
  }

  /** `findByUserAndNameContainingIgnoreCaseOrderByCreatedAtDesc`. */
  function SearchByName(items: seq<FoodItem>, owner: string, term: string): (r: seq<FoodItem>)
    ensures forall x :: x in r <==> x in items && x.owner == owner && OccursIn(Lower(term), Lower(x.name))
    ensures multiset(r) == multiset(Filter(items, OwnedNameContains(owner, term)))
    ensures SortedDesc(r, CreatedKey)
  {
    SortDesc(Filter(items, OwnedNameContains(owner, term)), CreatedKey)
  }

  /** `findByUserAndConsumedDateBetween`: inclusive at both ends, latest consumed first. */
  function ConsumedBetween(items: seq<FoodItem>, owner: string, start: Time, end: Time): (r: seq<FoodItem>)
    ensures forall x :: x in r <==>
      x in items && x.owner == owner && x.consumedDate.Some? && start <= x.consumedDate.value <= end
    ensures multiset(r) == multiset(Filter(items, OwnedConsumedBetween(owner, start, end)))
    ensures SortedDesc(r, ConsumedKey)
  {
    SortDesc(Filter(items, OwnedConsumedBetween(owner, start, end)), ConsumedKey)
  }

  /** `findRecentItemsByUser`: rows created at or after `from`, newest first. */
  function RecentSince(items: seq<FoodItem>, owner: string, from: Time): (r: seq<FoodItem>)
    ensures forall x :: x in r <==> x in items && x.owner == owner && x.createdAt >= from
    ensures multiset(r) == multiset(Filter(items, OwnedCreatedSince(owner, from)))
    ensures SortedDesc(r, CreatedKey)
  {
    SortDesc(Filter(items, OwnedCreatedSince(owner, from)), CreatedKey)
  }

  /** `findConsumedItemsByUser`: rows with a consumed time, latest consumed first. */
  function ConsumedItems(items: seq<FoodItem>, owner: string): (r: seq<FoodItem>)
    ensures forall x :: x in r <==> x in items && x.owner == owner && x.consumedDate.Some?
    ensures multiset(r) == multiset(Filter(items, OwnedConsumed(owner)))
    ensures SortedDesc(r, ConsumedKey)
  {
    SortDesc(Filter(items, OwnedConsumed(owner)), ConsumedKey)
  }

  /** `findItemsWithCaloriesByUser`: rows with a positive calorie count, newest first. */
  function WithCalories(items: seq<FoodItem>, owner: string): (r: seq<FoodItem>)
    ensures forall x :: x in r <==> x in items && x.owner == owner && x.calorie.Some? && x.calorie.value > 0
    ensures multiset(r) == multiset(Filter(items, OwnedWithCalories(owner)))
    ensures SortedDesc(r, CreatedKey)
  {
    SortDesc(Filter(items, OwnedWithCalories(owner)), CreatedKey)
  }

  /** `countTotalItemsByUser`. */
  function CountTotal(items: seq<FoodItem>, owner: string): nat
  {
    CountWhere(items, OwnedBy(owner))
  }

  /** `countConsumedItemsByUser`. */
  function CountConsumed(items: seq<FoodItem>, owner: string): nat
  {
    CountWhere(items, OwnedConsumed(owner))
  }

  /** `getTotalCaloriesByUser`: the sum of the owner's non-null calories, 0 when there are none. */
  function TotalCalories(items: seq<FoodItem>, owner: string): int
  {
    SumOf(Filter(items, OwnedWithAnyCalorie(owner)), CalorieOrZero)
  }

  /* ---------------- properties ---------------- */

  /** Every row a query returns belongs to the owner it was asked for. */
  lemma QueriesStayWithinOwner(items: seq<FoodItem>, owner: string, term: string, start: Time, end: Time, x: FoodItem)
    requires x in FindAllByOwner(items, owner) || x in SearchByName(items, owner, term)
      || x in ConsumedBetween(items, owner, start, end) || x in RecentSince(items, owner, start)
      || x in ConsumedItems(items, owner) || x in WithCalories(items, owner)
    ensures x in items && x.owner == owner
  {
  }

  /** The two counts agree with the lengths of the corresponding lists. */
  lemma CountsMatchLists(items: seq<FoodItem>, owner: string)
    ensures CountTotal(items, owner) == |FindAllByOwner(items, owner)|
    ensures CountConsumed(items, owner) == |ConsumedItems(items, owner)|
  {
    CountIsFilterLength(items, OwnedBy(owner));
    CountIsFilterLength(items, OwnedConsumed(owner));
  }

  /** With no calorie recorded, the total is 0. */
  lemma {:induction false} TotalWithoutCaloriesIsZero(items: seq<FoodItem>, owner: string)
    requires forall i :: 0 <= i < |items| && items[i].owner == owner ==> items[i].calorie.None?
    ensures TotalCalories(items, owner) == 0
  {
    FilterNonePass(items, OwnedWithAnyCalorie(owner));
  }

  /** A calorie count is present and positive: the with-calories test of server and client. */
  function HasCalories(x: FoodItem): bool
  {
    x.calorie.Some? && x.calorie.value > 0
  }

  /** Under the constraints, every row the total adds up has a calorie count of at least 0. */
  lemma SummedCaloriesNonNegative(items: seq<FoodItem>, owner: string)
    requires forall i :: 0 <= i < |items| && items[i].owner == owner ==> SatisfiesConstraints(items[i])
    ensures var any := Filter(items, OwnedWithAnyCalorie(owner));
      forall i :: 0 <= i < |any| ==> CalorieOrZero(any[i]) >= 0 && (!HasCalories(any[i]) ==> CalorieOrZero(any[i]) == 0)
  {
    var any := Filter(items, OwnedWithAnyCalorie(owner));
    forall i | 0 <= i < |any|
      ensures CalorieOrZero(any[i]) >= 0
    {
      assert any[i] in items;
    }
  }

  /**
   * When the owner's rows satisfy the constraints (no negative calories),
   * the total is the sum over the with-calories list: zero counts add
   * nothing, and the order of the list does not matter.
   */
  lemma {:induction false} TotalIsSumOfWithCalories(items: seq<FoodItem>, owner: string)
    requires forall i :: 0 <= i < |items| && items[i].owner == owner ==> SatisfiesConstraints(items[i])
    ensures TotalCalories(items, owner) == SumOf(WithCalories(items, owner), CalorieOrZero)
    ensures TotalCalories(items, owner) >= 0
  {
    var any := Filter(items, OwnedWithAnyCalorie(owner));
    var pos := Filter(items, OwnedWithCalories(owner));
    FilterFilter(items, OwnedWithAnyCalorie(owner), HasCalories, OwnedWithCalories(owner));
    SummedCaloriesNonNegative(items, owner);
    SumOfFilterDropsZeros(any, HasCalories, CalorieOrZero);
    SumOfPermutation(WithCalories(items, owner), pos, CalorieOrZero);
    SumOfNonNegative(any, CalorieOrZero);
  }

  /** The consumed-between and created-since lists are sub-lists of the owner's list. */
  lemma RangeQueriesWithinAll(items: seq<FoodItem>, owner: string, start: Time, end: Time)
    ensures forall x :: x in ConsumedBetween(items, owner, start, end) ==> x in ConsumedItems(items, owner)
    ensures forall x :: x in RecentSince(items, owner, start) ==> x in FindAllByOwner(items, owner)
    ensures |ConsumedBetween(items, owner, start, end)| <= |ConsumedItems(items, owner)|
  {
    FilterFilter(items, OwnedConsumed(owner), (x: FoodItem) => start <= ConsumedKey(x) <= end, OwnedConsumedBetween(owner, start, end));
  }
}

=== FILE: food_service.dfy ===
/**
 * The food-item service and the parts of its controller that transform
 * data: building an item from a create request, saving it for the current
 * owner, patching and deleting an owned item, the date-range dispatch, and
 * the export's day bounds and file name. The current owner and the clock
 * are parameters; date parsing and formatting are an abstract calendar.
 */
module FoodService {
  import opened Common
  import opened Food

  /**
   * One field of a JSON request body: missing, an explicit null, or a value
   * (strings as `asText` gives them, numbers as `asInt` gives them).
   */
  datatype JsonField<T> = Absent | Null | Value(v: T)

  datatype ItemRequest = ItemRequest(
    name: JsonField<string>,
    description: JsonField<string>,
    consumedDate: JsonField<string>,
    calorie: JsonField<int>,
    quantity: JsonField<string>)

  /**
   * The date library: ISO date-time and date parsing (partial), and the
   * ISO rendering of a day number. Their formats are not modelled.
   */
  datatype Calendar = Calendar(
    parseDateTime: string -> Option<Time>,
    parseDate: string -> Option<int>,
    showDate: int -> string)

  /** An item before it is saved: no id and no owner yet. */
  datatype Draft = Draft(
    name: string,
    createdAt: Option<Time>,
    consumedDate: Option<Time>,
    description: Option<string>,
    calorie: Option<int>,
    quantity: Option<string>)

  datatype FoodStore = FoodStore(items: seq<FoodItem>, nextId: nat)

  datatype Saved<T> = Saved(outcome: Outcome<T>, store: FoodStore)

  /** Ids are distinct and below the next id to be assigned. */
  ghost predicate WellFormed(st: FoodStore)
  {
    && (forall i :: 0 <= i < |st.items| ==> st.items[i].id < st.nextId)
    && (forall i, j :: 0 <= i < j < |st.items| ==> st.items[i].id != st.items[j].id)
  }

  /** Every stored row satisfies the entity constraints. */
  ghost predicate AllValid(st: FoodStore)
  {
    forall i :: 0 <= i < |st.items| ==> SatisfiesConstraints(st.items[i])
  }

  /* ---------------- request normalisation ---------------- */

  /**
   * `requestBody.get("name").asText()`: a missing name is a null pointer
   * error; an explicit null reads as the text "null".
   */
  function NameText(f: JsonField<string>): (r: Option<string>)
    ensures f.Absent? <==> r.None?
    ensures f.Null? ==> r == Some("null")
    ensures f.Value? ==> r == Some(f.v)
  {
    match f
    case Absent => None
    case Null => Some("null")
    case Value(s) => Some(s)
  }

  /** A text field's stored value: blank means no value. */
  function TextOrNone(s: string): (r: Option<string>)
    ensures r.None? <==> IsBlank(s)
    ensures r.Some? ==> r.value == s
  {
    if IsBlank(s) then None else Some(s)
  }

  /** A calorie count is kept only when positive. */
  function PositiveOrNone(c: int): (r: Option<int>)
    ensures r.Some? <==> c > 0
    ensures r.Some? ==> r.value == c
  {
    if c > 0 then Some(c) else None
  }

  /**
   * A consumed-date string: a full date-time if it parses as one, else the
   * start of the day if it parses as a date, else nothing; blank is nothing.
   */
  function ParseConsumed(cal: Calendar, s: string): (r: Option<Time>)
    ensures IsBlank(s) ==> r.None?
    ensures !IsBlank(s) && cal.parseDateTime(s).Some? ==> r == cal.parseDateTime(s)
    ensures !IsBlank(s) && cal.parseDateTime(s).None? && cal.parseDate(s).Some? ==>
      r == Some(StartOfDay(cal.parseDate(s).value))
    ensures r.Some? ==> cal.parseDateTime(s).Some? || cal.parseDate(s).Some?
  {
    if IsBlank(s) then None
    else match cal.parseDateTime(s)
      case Some(t) => Some(t)
      case None =>
        match cal.parseDate(s)
        case Some(d) => Some(StartOfDay(d))
        case None => None
  }

  /**
   * Apply one optional field of a patch: a missing or null field keeps the
   * stored value, a present one replaces it with its normalised form.
   */
  function Patch<A, B>(stored: Option<B>, f: JsonField<A>, normalise: A -> Option<B>): (r: Option<B>)
    ensures (f.Absent? || f.Null?) ==> r == stored
    ensures f.Value? ==> r == normalise(f.v)
  {
    match f
    case Value(v) => normalise(v)
    case _ => stored
  }

  function ConsumedNormaliser(cal: Calendar): string -> Option<Time>
  {
    (s: string) => ParseConsumed(cal, s)
  }

  /** The no-argument constructor: no fields but the creation time. */
  function NewDraft(name: string, now: Time): (d: Draft)
    ensures d.name == name && d.createdAt == Some(now)
    ensures d.consumedDate.None? && d.description.None? && d.calorie.None? && d.quantity.None?
  {
    Draft(name, Some(now), None, None, None, None)
  }

  /** The optional fields of a request laid over a draft. */
  function ApplyFields(d: Draft, req: ItemRequest, cal: Calendar): (r: Draft)
    ensures r.name == d.name && r.createdAt == d.createdAt
    ensures r.description == Patch(d.description, req.description, TextOrNone)
    ensures r.consumedDate == Patch(d.consumedDate, req.consumedDate, ConsumedNormaliser(cal))
    ensures r.calorie == Patch(d.calorie, req.calorie, PositiveOrNone)
    ensures r.quantity == Patch(d.quantity, req.quantity, TextOrNone)
  {
    d.(description := Patch(d.description, req.description, TextOrNone),
       consumedDate := Patch(d.consumedDate, req.consumedDate, ConsumedNormaliser(cal)),
       calorie := Patch(d.calorie, req.calorie, PositiveOrNone),
       quantity := Patch(d.quantity, req.quantity, TextOrNone))
  }

  /**
   * The controller's create normalisation, field by field on a freshly
   * constructed item: the name is required; a description or quantity is set
   * only when present and not blank; a calorie count only when present and
   * positive; a present, non-blank consumed date is parsed, and one that
   * parses neither way stays unset.
   */
  function DraftFromRequest(req: ItemRequest, cal: Calendar, now: Time): (r: Option<Draft>)
    ensures r.None? <==> req.name.Absent?
    ensures r.Some? ==> r.value.name == NameText(req.name).value && r.value.createdAt == Some(now)
    ensures r.Some? ==>
      r.value.description == (if req.description.Value? && !IsBlank(req.description.v) then Some(req.description.v) else None)
    ensures r.Some? ==>
      r.value.quantity == (if req.quantity.Value? && !IsBlank(req.quantity.v) then Some(req.quantity.v) else None)
    ensures r.Some? ==>
      r.value.calorie == (if req.calorie.Value? && req.calorie.v > 0 then Some(req.calorie.v) else None)
    ensures r.Some? ==>
      r.value.consumedDate == (if req.consumedDate.Value? then ParseConsumed(cal, req.consumedDate.v) else None)
    ensures r.Some? && req.consumedDate.Value? && cal.parseDateTime(req.consumedDate.v).None? && cal.parseDate(req.consumedDate.v).None? ==>
      r.value.consumedDate.None?
  {
    match NameText(req.name)
    case None => None
    case Some(name) =>
      var d0 := NewDraft(name, now);
      var d1 := if req.description.Value? && !IsBlank(req.description.v) then d0.(description := Some(req.description.v)) else d0;
      var d2 := if req.consumedDate.Value? && !IsBlank(req.consumedDate.v) then d1.(consumedDate := ParseConsumed(cal, req.consumedDate.v)) else d1;
      var d3 := if req.calorie.Value? && req.calorie.v > 0 then d2.(calorie := Some(req.calorie.v)) else d2;
      var d4 := if req.quantity.Value? && !IsBlank(req.quantity.v) then d3.(quantity := Some(req.quantity.v)) else d3;
      Some(d4)
  }

  /** The entity constraints on the fields a draft carries. */
  predicate DraftSatisfiesConstraints(d: Draft)
  {
    FieldsSatisfyConstraints(d.name, d.description, d.calorie, d.quantity)
  }

  /* ---------------- service operations ---------------- */

  /**
   * `saveFoodItem`: the current owner becomes the item's owner, a missing
   * creation time is set to now, a fresh id is assigned; a row that breaks
   * the entity constraints is refused at flush and nothing is stored.
   */
  function SaveFoodItem(st: FoodStore, owner: string, d: Draft, now: Time): (r: Saved<FoodItem>)
    ensures r.outcome.Ok? ==>
      && r.outcome.value.owner == owner
      && r.outcome.value.createdAt == (if d.createdAt.Some? then d.createdAt.value else now)
      && r.outcome.value.name == d.name && r.outcome.value.consumedDate == d.consumedDate
      && r.outcome.value.description == d.description && r.outcome.value.calorie == d.calorie
      && r.outcome.value.quantity == d.quantity
      && r.outcome.value.id == st.nextId
      && SatisfiesConstraints(r.outcome.value)
      && r.store == FoodStore(st.items + [r.outcome.value], st.nextId + 1)
    ensures r.outcome.Ok? <==> DraftSatisfiesConstraints(d)
    ensures !r.outcome.Ok? ==> r == Saved(Raised(ConstraintViolation), st)
  {
    var created := if d.createdAt.Some? then d.createdAt.value else now;
    var it := FoodItem(st.nextId, owner, d.name, created, d.consumedDate, d.description, d.calorie, d.quantity);
    if SatisfiesConstraints(it) then Saved(Ok(it), FoodStore(st.items + [it], st.nextId + 1))
    else Saved(Raised(ConstraintViolation), st)
  }

  /**
   * `createFoodItem`: normalise the request and save it; any failure, a
   * missing name included, is answered with a bad request and stores nothing.
   */
  function CreateFoodItem(st: FoodStore, owner: string, req: ItemRequest, cal: Calendar, now: Time): (r: Saved<FoodItem>)
    ensures req.name.Absent? ==> r == Saved(Rejected(MissingName), st)
    ensures r.outcome.Ok? <==> !req.name.Absent? && DraftSatisfiesConstraints(DraftFromRequest(req, cal, now).value)
    ensures !req.name.Absent? && !DraftSatisfiesConstraints(DraftFromRequest(req, cal, now).value) ==>
      r == Saved(Rejected(ConstraintViolation), st)
    ensures !r.outcome.Raised?
    ensures r.outcome.Rejected? ==> r.store == st
    ensures r.outcome.Ok? ==>
      && r.outcome.value.owner == owner && r.outcome.value.createdAt == now
      && r.outcome.value.id == st.nextId
      && SatisfiesConstraints(r.outcome.value)
      && r.store == FoodStore(st.items + [r.outcome.value], st.nextId + 1)
    ensures r.outcome.Ok? && !req.name.Absent? ==>
      var d := DraftFromRequest(req, cal, now).value;
      && r.outcome.value.name == d.name && r.outcome.value.description == d.description
      && r.outcome.value.consumedDate == d.consumedDate && r.outcome.value.calorie == d.calorie
      && r.outcome.value.quantity == d.quantity
  {
    match DraftFromRequest(req, cal, now)
    case None => Saved(Rejected(MissingName), st)
    case Some(d) =>
      var s := SaveFoodItem(st, owner, d, now);
      if s.outcome.Ok? then s else Saved(Rejected(ConstraintViolation), st)
  }

  /**
   * `updateFoodItem`: only an item the owner owns is found, otherwise the
   * call raises. The name is always overwritten (a missing one raises);
   * optional fields follow the patch rules; a row that breaks the
   * constraints is refused. A refused update changes nothing.
   */
  function UpdateFoodItem(st: FoodStore, owner: string, id: nat, req: ItemRequest, cal: Calendar): (r: Saved<FoodItem>)
    ensures FindByIdAndOwner(st.items, id, owner).None? ==> r == Saved(Raised(ItemNotFound), st)
    ensures !r.outcome.Ok? ==> r.store == st && r.outcome.Raised?
    ensures r.outcome.Ok? ==> FindByIdAndOwner(st.items, id, owner).Some? && !req.name.Absent?
    ensures FindByIdAndOwner(st.items, id, owner).Some? && req.name.Absent? ==> r == Saved(Raised(MissingName), st)
    ensures FindByIdAndOwner(st.items, id, owner).Some? && !req.name.Absent? ==>
      var old_ := st.items[FindByIdAndOwner(st.items, id, owner).value];
      (r.outcome.Ok? <==> FieldsSatisfyConstraints(NameText(req.name).value,
                             Patch(old_.description, req.description, TextOrNone),
                             Patch(old_.calorie, req.calorie, PositiveOrNone),
                             Patch(old_.quantity, req.quantity, TextOrNone)))
    ensures r.outcome.Ok? && FindByIdAndOwner(st.items, id, owner).Some? && !req.name.Absent? ==>
      var i := FindByIdAndOwner(st.items, id, owner).value;
      var old_ := st.items[i];
      && r.outcome.value.id == id && r.outcome.value.owner == owner
      && r.outcome.value.createdAt == old_.createdAt
      && r.outcome.value.name == NameText(req.name).value
      && r.outcome.value.description == Patch(old_.description, req.description, TextOrNone)
      && r.outcome.value.consumedDate == Patch(old_.consumedDate, req.consumedDate, ConsumedNormaliser(cal))
      && r.outcome.value.calorie == Patch(old_.calorie, req.calorie, PositiveOrNone)
      && r.outcome.value.quantity == Patch(old_.quantity, req.quantity, TextOrNone)
      && SatisfiesConstraints(r.outcome.value)
      && r.store == st.(items := st.items[i := r.outcome.value])
  {
    match FindByIdAndOwner(st.items, id, owner)
    case None => Saved(Raised(ItemNotFound), st)
    case Some(i) =>
      match NameText(req.name)
      case None => Saved(Raised(MissingName), st)
      case Some(name) =>
        var old_ := st.items[i];
        var d := ApplyFields(Draft(name, Some(old_.createdAt), old_.consumedDate, old_.description, old_.calorie, old_.quantity), req, cal);
        var it := FoodItem(old_.id, old_.owner, d.name, old_.createdAt, d.consumedDate, d.description, d.calorie, d.quantity);
        if SatisfiesConstraints(it) then Saved(Ok(it), st.(items := st.items[i := it]))
        else Saved(Raised(ConstraintViolation), st)
  }

  /** `deleteFoodItem`: removes the owned item with that id, or raises and changes nothing. */
  function DeleteFoodItem(st: FoodStore, owner: string, id: nat): (r: Saved<()>)
    ensures FindByIdAndOwner(st.items, id, owner).None? <==> r == Saved(Raised(ItemNotFound), st)
    ensures r.outcome.Ok? <==> FindByIdAndOwner(st.items, id, owner).Some?
    ensures FindByIdAndOwner(st.items, id, owner).Some? ==>
      var i := FindByIdAndOwner(st.items, id, owner).value;
      && r.store.nextId == st.nextId
      && multiset(r.store.items) + multiset{st.items[i]} == multiset(st.items)
      && Subsequence(r.store.items, st.items)
  {
    match FindByIdAndOwner(st.items, id, owner)
    case None => Saved(Raised(ItemNotFound), st)
    case Some(i) =>
      var rest := st.items[..i] + st.items[i + 1..];
      assert st.items == st.items[..i] + [st.items[i]] + st.items[i + 1..];
      RemovalIsSubsequence(st.items, i);
      Saved(Ok(()), st.(items := rest))
  }

  lemma {:induction false} RemovalIsSubsequence<T>(s: seq<T>, i: nat)
    requires i < |s|
    ensures Subsequence(s[..i] + s[i + 1..], s)
    decreases i
  {
    if i == 0 {
      assert s[..0] + s[1..] == s[1..];
      SubsequenceOfSelf(s[1..]);
    } else {
      RemovalIsSubsequence(s[1..], i - 1);
      var r := s[..i] + s[i + 1..];
      assert r[0] == s[0];
      assert r[1..] == s[1..][..i - 1] + s[1..][i..];
    }
  }

  lemma {:induction false} SubsequenceOfSelf<T>(s: seq<T>)
    ensures Subsequence(s, s)
    decreases |s|
  {
    if |s| > 0 {
      SubsequenceOfSelf(s[1..]);
    }
  }

  /**
   * `getFoodItemsByDateRange`: with both bounds, items consumed between
   * them; with a start only, items created since it; otherwise, including
   * an end alone, every item of the owner.
   */
  function ItemsByDateRange(items: seq<FoodItem>, owner: string, start: Option<Time>, end: Option<Time>): (r: seq<FoodItem>)
    ensures start.Some? && end.Some? ==> forall x :: x in r <==>
      x in items && x.owner == owner && x.consumedDate.Some? && start.value <= x.consumedDate.value <= end.value
    ensures start.Some? && end.None? ==> forall x :: x in r <==>
      x in items && x.owner == owner && x.createdAt >= start.value
    ensures start.None? ==> forall x :: x in r <==> x in items && x.owner == owner
    ensures forall x :: x in r ==> x in FindAllByOwner(items, owner)
  {
    if start.Some? && end.Some? then ConsumedBetween(items, owner, start.value, end.value)
    else if start.Some? then RecentSince(items, owner, start.value)
    else FindAllByOwner(items, owner)
  }

  const RecentDays: int := 7

  /** `getRecentFoodItems`: items created in the last seven days. */
  function RecentFoodItems(items: seq<FoodItem>, owner: string, now: Time): (r: seq<FoodItem>)
    ensures forall x :: x in r <==> x in items && x.owner == owner && now - x.createdAt <= RecentDays * SecondsPerDay
  {
    RecentSince(items, owner, now - RecentDays * SecondsPerDay)
  }

  /* ---------------- export ---------------- */

  datatype Export = Export(rows: seq<FoodItem>, filename: string)

  /** A query parameter counts only when present and not blank. */
  function Given(p: Option<string>): bool
  {
    p.Some? && !IsBlank(p.value)
  }

  /** The bound a date parameter gives: absent, refused, or a time. */
  datatype Bound = NoBound | BadBound | At(t: Time)

  function StartBound(cal: Calendar, p: Option<string>): (b: Bound)
    ensures !Given(p) <==> b.NoBound?
    ensures b.At? ==> cal.parseDate(p.value).Some? && b.t == StartOfDay(cal.parseDate(p.value).value)
    ensures b.BadBound? ==> cal.parseDate(p.value).None?
  {
    if !Given(p) then NoBound
    else match cal.parseDate(p.value)
      case None => BadBound
      case Some(d) => At(StartOfDay(d))
  }

  function EndBound(cal: Calendar, p: Option<string>): (b: Bound)
    ensures !Given(p) <==> b.NoBound?
    ensures b.At? ==> cal.parseDate(p.value).Some? && b.t == EndOfDay(cal.parseDate(p.value).value)
    ensures b.BadBound? ==> cal.parseDate(p.value).None?
  {
    if !Given(p) then NoBound
    else match cal.parseDate(p.value)
      case None => BadBound
      case Some(d) => At(EndOfDay(d))
  }

  function AsTime(b: Bound): Option<Time>
  {
    if b.At? then Some(b.t) else None
  }

  /** The attachment's name: by the days of both bounds, by the start day alone, or all time. */
  function ExportFilename(cal: Calendar, start: Option<Time>, end: Option<Time>): (name: string)
    ensures start.Some? && end.Some? ==>
      name == "food_items_" + cal.showDate(ToLocalDate(start.value)) + "_to_" + cal.showDate(ToLocalDate(end.value)) + ".csv"
    ensures start.Some? && end.None? ==> name == "food_items_from_" + cal.showDate(ToLocalDate(start.value)) + ".csv"
    ensures start.None? ==> name == "food_items_all_time.csv"
  {
    var stem := "food_items";
    var stem' :=
      if start.Some? && end.Some? then stem + "_" + cal.showDate(ToLocalDate(start.value)) + "_to_" + cal.showDate(ToLocalDate(end.value))
      else if start.Some? then stem + "_from_" + cal.showDate(ToLocalDate(start.value))
      else stem + "_all_time";
    stem' + ".csv"
  }

  /**
   * `exportFoodItemsToCSV`: a start date maps to the start of its day and an
   * end date to 23:59:59 of its day; an unparseable start is refused before
   * the end is looked at; the rows are those of the date-range dispatch.
   */
  function ExportFoodItems(items: seq<FoodItem>, owner: string, cal: Calendar, startParam: Option<string>, endParam: Option<string>): (r: Outcome<Export>)
    ensures StartBound(cal, startParam).BadBound? <==> r == Rejected(InvalidStartDate)
    ensures !StartBound(cal, startParam).BadBound? && EndBound(cal, endParam).BadBound? <==> r == Rejected(InvalidEndDate)
    ensures !r.Raised?
    ensures r.Ok? ==>
      var s := AsTime(StartBound(cal, startParam));
      var e := AsTime(EndBound(cal, endParam));
      && r.value.rows == ItemsByDateRange(items, owner, s, e)
      && r.value.filename == ExportFilename(cal, s, e)
  {
    var sb := StartBound(cal, startParam);
    if sb.BadBound? then Rejected(InvalidStartDate)
    else
      var eb := EndBound(cal, endParam);
      if eb.BadBound? then Rejected(InvalidEndDate)
      else
        var s := AsTime(sb);
        var e := AsTime(eb);
        Ok(Export(ItemsByDateRange(items, owner, s, e), ExportFilename(cal, s, e)))
  }

  /* ---------------- properties ---------------- */

  /** A time lies between the export's day bounds exactly when its day lies between the two days. */
  lemma WholeDayBounds(d1: int, d2: int, t: Time)
    ensures StartOfDay(d1) <= t <= EndOfDay(d2) <==> d1 <= ToLocalDate(t) <= d2
  {
    var q := ToLocalDate(t);
    assert q * SecondsPerDay <= t < q * SecondsPerDay + SecondsPerDay;
    if d1 <= q {
      assert d1 * SecondsPerDay <= q * SecondsPerDay;
    }
    if q < d1 {
      assert q * SecondsPerDay + SecondsPerDay <= d1 * SecondsPerDay;
    }
    if q <= d2 {
      assert q * SecondsPerDay <= d2 * SecondsPerDay;
    }
    if d2 < q {
      assert d2 * SecondsPerDay + SecondsPerDay <= q * SecondsPerDay;
    }
  }

  /**
   * Exporting between two days yields the owner's items consumed on any
   * day from the first to the last, both included, and names the file by
   * the two days.
   */
  lemma ExportBetweenDays(items: seq<FoodItem>, owner: string, cal: Calendar, sp: string, ep: string)
    requires !IsBlank(sp) && !IsBlank(ep)
    requires cal.parseDate(sp).Some? && cal.parseDate(ep).Some?
    ensures var r := ExportFoodItems(items, owner, cal, Some(sp), Some(ep));
      var d1 := cal.parseDate(sp).value;
      var d2 := cal.parseDate(ep).value;
      && r.Ok?
      && (forall x :: x in r.value.rows <==>
            x in items && x.owner == owner && x.consumedDate.Some? && d1 <= ToLocalDate(x.consumedDate.value) <= d2)
      && r.value.filename == "food_items_" + cal.showDate(d1) + "_to_" + cal.showDate(d2) + ".csv"
  {
    var d1 := cal.parseDate(sp).value;
    var d2 := cal.parseDate(ep).value;
    forall t: Time
      ensures StartOfDay(d1) <= t <= EndOfDay(d2) <==> d1 <= ToLocalDate(t) <= d2
    {
      WholeDayBounds(d1, d2, t);
    }
    DayBoundsRoundTrip(d1);
    DayBoundsRoundTrip(d2);
  }

  /** An end date without a start is ignored: every item, named for all time. */
  lemma ExportEndOnlyIsAllTime(items: seq<FoodItem>, owner: string, cal: Calendar, ep: string)
    requires !IsBlank(ep) && cal.parseDate(ep).Some?
    ensures ExportFoodItems(items, owner, cal, None, Some(ep)) ==
      Ok(Export(FindAllByOwner(items, owner), "food_items_all_time.csv"))
    ensures ExportFoodItems(items, owner, cal, Some(""), Some(ep)) ==
      Ok(Export(FindAllByOwner(items, owner), "food_items_all_time.csv"))
  {
  }

  /**
   * Creating is patching a fresh item: the controller's field-by-field
   * create normalisation gives exactly what the service's update rules give
   * when they are applied to a newly constructed item.
   */
  lemma CreateIsPatchOfFresh(req: ItemRequest, cal: Calendar, now: Time)
    requires !req.name.Absent?
    ensures DraftFromRequest(req, cal, now) == Some(ApplyFields(NewDraft(NameText(req.name).value, now), req, cal))
    ensures var d := DraftFromRequest(req, cal, now).value;
      && (req.description.Value? && IsBlank(req.description.v) ==> d.description.None?)
      && (req.calorie.Value? && req.calorie.v <= 0 ==> d.calorie.None?)
      && (req.consumedDate.Value? && IsBlank(req.consumedDate.v) ==> d.consumedDate.None?)
  {
  }

  /** Applying the same patch twice gives what applying it once gives. */
  lemma PatchIdempotent(d: Draft, req: ItemRequest, cal: Calendar)
    ensures ApplyFields(ApplyFields(d, req, cal), req, cal) == ApplyFields(d, req, cal)
  {
  }

  /** A patch with only the stored name leaves a valid item as it was. */
  lemma {:induction false} EmptyPatchChangesNothing(st: FoodStore, owner: string, id: nat, cal: Calendar)
    requires AllValid(st)
    requires FindByIdAndOwner(st.items, id, owner).Some?
    ensures var i := FindByIdAndOwner(st.items, id, owner).value;
      var r := UpdateFoodItem(st, owner, id, ItemRequest(Value(st.items[i].name), Absent, Null, Absent, Null), cal);
      r.outcome == Ok(st.items[i]) && r.store == st
  {
    var i := FindByIdAndOwner(st.items, id, owner).value;
    assert SatisfiesConstraints(st.items[i]);
    assert st.items[i := st.items[i]] == st.items;
  }

  /** Update and delete leave every other owner's items where they were. */
  lemma {:induction false} OtherOwnersUntouched(st: FoodStore, owner: string, id: nat, req: ItemRequest, cal: Calendar, x: FoodItem)
    requires x in st.items && x.owner != owner
    ensures x in UpdateFoodItem(st, owner, id, req, cal).store.items
    ensures x in DeleteFoodItem(st, owner, id).store.items
  {
    var u := UpdateFoodItem(st, owner, id, req, cal);
    if u.outcome.Ok? {
      var i := FindByIdAndOwner(st.items, id, owner).value;
      var k :| 0 <= k < |st.items| && st.items[k] == x;
      assert k != i;
      assert u.store.items[k] == x;
    }
    var d := DeleteFoodItem(st, owner, id);
    if d.outcome.Ok? {
      var i := FindByIdAndOwner(st.items, id, owner).value;
      assert x != st.items[i];
      assert x in multiset(st.items);
    }
  }

  /** Saving keeps ids distinct and every row valid. */
  lemma SaveKeepsStoreInvariants(st: FoodStore, owner: string, d: Draft, now: Time)
    requires WellFormed(st) && AllValid(st)
    ensures var s := SaveFoodItem(st, owner, d, now).store; WellFormed(s) && AllValid(s)
  {
  }

  /** Updating keeps ids distinct and every row valid. */
  lemma UpdateKeepsStoreInvariants(st: FoodStore, owner: string, id: nat, req: ItemRequest, cal: Calendar)
    requires WellFormed(st) && AllValid(st)
    ensures var s := UpdateFoodItem(st, owner, id, req, cal).store; WellFormed(s) && AllValid(s)
  {
  }

  /** Deleting keeps ids distinct and every row valid. */
  lemma {:induction false} DeleteKeepsStoreInvariants(st: FoodStore, owner: string, id: nat)
    requires WellFormed(st) && AllValid(st)
    ensures var s := DeleteFoodItem(st, owner, id).store; WellFormed(s) && AllValid(s)
  {
    var del := DeleteFoodItem(st, owner, id);
    if del.outcome.Ok? {
      var i := FindByIdAndOwner(st.items, id, owner).value;
      var rest := del.store.items;
      assert rest == st.items[..i] + st.items[i + 1..];
      forall a | 0 <= a < |rest|
        ensures rest[a] == st.items[if a < i then a else a + 1]
      {
      }
    }
  }

  /** A deleted item can no longer be found, updated or deleted again. */
  lemma DeleteIsFinal(st: FoodStore, owner: string, id: nat, req: ItemRequest, cal: Calendar)
    requires WellFormed(st)
    requires FindByIdAndOwner(st.items, id, owner).Some?
    ensures var s := DeleteFoodItem(st, owner, id).store;
      && FindByIdAndOwner(s.items, id, owner).None?
      && DeleteFoodItem(s, owner, id).outcome == Raised(ItemNotFound)
      && UpdateFoodItem(s, owner, id, req, cal).outcome == Raised(ItemNotFound)
  {
    DeletedIdIsGone(st, owner, id);
  }

  /** After a delete, no remaining row carries the deleted id. */
  lemma {:induction false} DeletedIdIsGone(st: FoodStore, owner: string, id: nat)
    requires WellFormed(st)
    requires FindByIdAndOwner(st.items, id, owner).Some?
    ensures FindByIdAndOwner(DeleteFoodItem(st, owner, id).store.items, id, owner).None?
  {
    var i := FindByIdAndOwner(st.items, id, owner).value;
    var rest := DeleteFoodItem(st, owner, id).store.items;
    assert rest == st.items[..i] + st.items[i + 1..];
    forall a | 0 <= a < |rest|
      ensures rest[a].id != id
    {
      if a < i {
        assert rest[a] == st.items[a];
      } else {
        assert rest[a] == st.items[a + 1];
      }
    }
  }
}

=== FILE: food_tracker.dfy ===
/**
 * The client-side view of the food list: the search-and-tab filter, the
 * calorie total of what is shown, and the counters in the header. The
 * clock is a parameter.
 */
module FoodTracker {
  import opened Common
  import opened Food

  /** JavaScript truthiness of the optional fields the filters test. */
  predicate HasText(s: Option<string>)
  {
    s.Some? && s.value != ""
  }

  /** The search test: the name, or a non-empty description, contains the term, ignoring case. */
  function MatchesSearch(term: string): FoodItem -> bool
  {
    (x: FoodItem) =>
      Contains(Lower(x.name), Lower(term)) || (HasText(x.description) && Contains(Lower(x.description.value), Lower(term)))
  }

  const WeekSeconds: int := 7 * SecondsPerDay

  function CreatedWithinWeek(now: Time): FoodItem -> bool
  {
    (x: FoodItem) => x.createdAt >= now - WeekSeconds
  }

  function IsConsumed(x: FoodItem): bool
  {
    x.consumedDate.Some?
  }

  function KeepAll(x: FoodItem): bool
  {
    true
  }

  /** The test of the active tab; an unknown tab, "all" included, keeps everything. */
  function TabTest(tab: string, now: Time): FoodItem -> bool
  {
    if tab == "recent" then CreatedWithinWeek(now)
    else if tab == "consumed" then IsConsumed
    else if tab == "with-calories" then HasCalories
    else KeepAll
  }

  /** Whether `filterItems` keeps an item: the typed term, if any, and then the active tab's test. */
  predicate MatchesSearchAndTab(x: FoodItem, term: string, tab: string, now: Time)
  {
    (term != "" ==> MatchesSearch(term)(x)) && TabTest(tab, now)(x)
  }

  /** `filterItems`: search first when a term is typed, then the tab's test. */
  function FilterItems(items: seq<FoodItem>, term: string, tab: string, now: Time): (r: seq<FoodItem>)
    ensures Subsequence(r, items)
    ensures forall x :: multiset(r)[x] == if MatchesSearchAndTab(x, term, tab, now) then multiset(items)[x] else 0
    ensures forall x :: x in r <==>
      && x in items
      && (term != "" ==> OccursIn(Lower(term), Lower(x.name))
                         || (HasText(x.description) && OccursIn(Lower(term), Lower(x.description.value))))
      && (tab == "recent" ==> x.createdAt >= now - WeekSeconds)
      && (tab == "consumed" ==> x.consumedDate.Some?)
      && (tab == "with-calories" ==> x.calorie.Some? && x.calorie.value > 0)
  {
    var searched := if term != "" then Filter(items, MatchesSearch(term)) else items;
    var r := Filter(searched, TabTest(tab, now));
    SubsequenceTransitive(r, searched, items);
    r
  }

  /** `getTotalCalories`: the sum over the shown items, a missing calorie counting 0. */
  function GetTotalCalories(filtered: seq<FoodItem>): (total: int)
    ensures (forall i :: 0 <= i < |filtered| ==> filtered[i].calorie.None?) ==> total == 0
    ensures (forall i :: 0 <= i < |filtered| ==> CalorieOrZero(filtered[i]) >= 0) ==> total >= 0
  {
    MissingCaloriesSumToZero(filtered);
    NonNegativeCaloriesSum(filtered);
    SumOf(filtered, CalorieOrZero)
  }

  lemma {:induction false} MissingCaloriesSumToZero(s: seq<FoodItem>)
    ensures (forall i :: 0 <= i < |s| ==> s[i].calorie.None?) ==> SumOf(s, CalorieOrZero) == 0
    decreases |s|
  {
    if |s| > 0 {
      MissingCaloriesSumToZero(s[1..]);
    }
  }

  lemma NonNegativeCaloriesSum(s: seq<FoodItem>)
    ensures (forall i :: 0 <= i < |s| ==> CalorieOrZero(s[i]) >= 0) ==> SumOf(s, CalorieOrZero) >= 0
  {
    if forall i :: 0 <= i < |s| ==> CalorieOrZero(s[i]) >= 0 {
      SumOfNonNegative(s, CalorieOrZero);
    }
  }

  datatype Counts = Counts(total: nat, filtered: nat, consumed: nat, withCalories: nat)

  /** `getItemsCount`: only `filtered` is taken from the shown list; the rest from the full list. */
  function GetItemsCount(items: seq<FoodItem>, filtered: seq<FoodItem>): (c: Counts)
    ensures c.total == |items| && c.filtered == |filtered|
    ensures c.consumed <= c.total && c.withCalories <= c.total
    ensures c.consumed == CountWhere(items, IsConsumed)
    ensures c.withCalories == CountWhere(items, HasCalories)
  {
    CountIsFilterLength(items, IsConsumed);
    CountIsFilterLength(items, HasCalories);
    Counts(|items|, |filtered|, |Filter(items, IsConsumed)|, |Filter(items, HasCalories)|)
  }

  /* ---------------- properties ---------------- */

  /** No term and the "all" tab show the whole list. */
  lemma {:induction false} NoFilterShowsAll(items: seq<FoodItem>, now: Time)
    ensures FilterItems(items, "", "all", now) == items
  {
    FilterAllPass(items, TabTest("all", now));
  }

  /** The counters do not depend on what the filter shows. */
  lemma CountsIgnoreFilter(items: seq<FoodItem>, f1: seq<FoodItem>, f2: seq<FoodItem>)
    ensures GetItemsCount(items, f1).(filtered := 0) == GetItemsCount(items, f2).(filtered := 0)
  {
  }

  /**
   * On the owner's full list as the server sends it, the client's counters
   * and unfiltered calorie total agree with the server's count, consumed
   * count, with-calories list and total.
   */
  lemma {:induction false} ClientAgreesWithServer(items: seq<FoodItem>, owner: string, now: Time)
    ensures var all := FindAllByOwner(items, owner);
      var c := GetItemsCount(all, FilterItems(all, "", "all", now));
      && c.total == CountTotal(items, owner)
      && c.consumed == CountConsumed(items, owner)
      && c.withCalories == |WithCalories(items, owner)|
      && GetTotalCalories(FilterItems(all, "", "all", now)) == TotalCalories(items, owner)
  {
    var own := Filter(items, OwnedBy(owner));
    var all := FindAllByOwner(items, owner);
    NoFilterShowsAll(all, now);
    CountsMatchLists(items, owner);
    // consumed: the client filters the sorted list, the server counts the rows
    FilterPermutation(all, own, IsConsumed);
    FilterFilter(items, OwnedBy(owner), IsConsumed, OwnedConsumed(owner));
    CountIsFilterLength(items, OwnedConsumed(owner));
    CountIsFilterLength(all, IsConsumed);
    // with calories
    FilterPermutation(all, own, HasCalories);
    FilterFilter(items, OwnedBy(owner), HasCalories, OwnedWithCalories(owner));
    CountIsFilterLength(all, HasCalories);
    assert |WithCalories(items, owner)| == |multiset(WithCalories(items, owner))|;
    // total
    SumOfPermutation(all, own, CalorieOrZero);
    TotalCaloriesOverOwned(items, owner);
  }

  /** The server total is the sum over all the owner's rows, a missing calorie counting 0. */
  lemma TotalCaloriesOverOwned(items: seq<FoodItem>, owner: string)
    ensures TotalCalories(items, owner) == SumOf(Filter(items, OwnedBy(owner)), CalorieOrZero)
  {
    var own := Filter(items, OwnedBy(owner));
    FilterFilter(items, OwnedBy(owner), (x: FoodItem) => x.calorie.Some?, OwnedWithAnyCalorie(owner));
    SumOfFilterDropsZeros(own, (x: FoodItem) => x.calorie.Some?, CalorieOrZero);
  }

  /** Every tab shows a sub-list of what the "all" tab shows for the same search. */
  lemma {:induction false} TabsNarrow(items: seq<FoodItem>, term: string, tab: string, now: Time)
    ensures Subsequence(FilterItems(items, term, tab, now), FilterItems(items, term, "all", now))
  {
    var searched := if term != "" then Filter(items, MatchesSearch(term)) else items;
    FilterAllPass(searched, TabTest("all", now));
    assert FilterItems(items, term, "all", now) == searched;
  }

  /**
   * For any search, under the entity constraints: no tab totals more than the
   * "all" tab, and the with-calories tab totals exactly as much, since the
   * items it hides count 0.
   */
  lemma {:induction false} TabTotals(items: seq<FoodItem>, term: string, tab: string, now: Time)
    requires forall x :: x in items ==> SatisfiesConstraints(x)
    ensures 0 <= GetTotalCalories(FilterItems(items, term, tab, now)) <= GetTotalCalories(FilterItems(items, term, "all", now))
    ensures GetTotalCalories(FilterItems(items, term, "with-calories", now)) == GetTotalCalories(FilterItems(items, term, "all", now))
  {
    var searched := if term != "" then Filter(items, MatchesSearch(term)) else items;
    var shown := FilterItems(items, term, tab, now);
    FilterAllPass(searched, TabTest("all", now));
    assert FilterItems(items, term, "all", now) == searched;
    assert shown == Filter(searched, TabTest(tab, now));
    assert FilterItems(items, term, "with-calories", now) == Filter(searched, HasCalories);
    forall i | 0 <= i < |searched|
      ensures CalorieOrZero(searched[i]) >= 0 && (!HasCalories(searched[i]) ==> CalorieOrZero(searched[i]) == 0)
    {
      assert searched[i] in items;
    }
    forall i | 0 <= i < |shown|
      ensures CalorieOrZero(shown[i]) >= 0
    {
      assert shown[i] in items;
    }
    SumOfFilterAtMost(searched, TabTest(tab, now), CalorieOrZero);
    SumOfFilterDropsZeros(searched, HasCalories, CalorieOrZero);
  }
}

=== FILE: oauth.dfy ===
/**
 * Reconciliation of a federated login with the user store: the provider
 * check, the display-name split, the create-or-merge by email, and the
 * token whose subject is the reconciled email.
 */
module OAuth {
  import opened Common
  import opened Users

  /** The claims the provider asserted about the signed-in person. */
  datatype Attributes = Attributes(email: string, name: string, picture: Option<string>, sub: string)

  /** An issued bearer token; signing is outside the model, the subject is kept. */
  datatype Token = Token(subject: string)

  datatype Names = Names(first: string, last: string)

  /** The merged user, the store after the call, and whether a write happened. */
  datatype Reconciled = Reconciled(user: User, users: UserStore, written: bool)

  datatype Diff = Diff(user: User, updated: bool)

  function FirstSpace(s: string, from: nat): (r: Option<nat>)
    requires from <= |s|
    ensures r.Some? ==> from <= r.value < |s| && s[r.value] == ' '
    ensures r.Some? ==> forall k :: from <= k < r.value ==> s[k] != ' '
    ensures r.None? ==> forall k :: from <= k < |s| ==> s[k] != ' '
    decreases |s| - from
  {
    if from == |s| then None
    else if s[from] == ' ' then Some(from)
    else FirstSpace(s, from + 1)
  }

  /**
   * `name.split(" ", 2)`: the first part has no space, and when the name
   * has a space the parts joined by one space give back the name; with no
   * space the whole name is the first part and the last part is empty.
   */
  function SplitName(name: string): (n: Names)
    ensures ' ' !in n.first
    ensures ' ' in name ==> n.first + " " + n.last == name
    ensures ' ' !in name ==> n.first == name && n.last == ""
  {
    match FirstSpace(name, 0)
    case None => Names(name, "")
    case Some(i) =>
      assert name == name[..i] + " " + name[i + 1..];
      Names(name[..i], name[i + 1..])
  }

  /** The split is the only one with a space-free first part that rebuilds the name. */
  lemma SplitNameUnique(name: string, first: string, last: string)
    requires ' ' !in first && first + " " + last == name
    ensures SplitName(name) == Names(first, last)
  {
    var n := SplitName(name);
    assert name[|first|] == ' ';
    assert ' ' in name;
    assert |n.first| == |first|;
    assert n.first == name[..|first|] == first;
    assert n.last == name[|first| + 1..] == last;
  }

  lemma SplitExamples()
    ensures SplitName("Madonna") == Names("Madonna", "")
    ensures SplitName("A B C") == Names("A", "B C")
    ensures SplitName("") == Names("", "")
    ensures SplitName(" Bob") == Names("", "Bob")
  {
    SplitNameUnique("A B C", "A", "B C");
    SplitNameUnique(" Bob", "", "Bob");
  }

  /**
   * `updateExistingUser`: names overwritten, the picture only when one is
   * asserted, provider LOCAL upgraded to GOOGLE, email marked verified; the
   * password, provider id, email and enabled flag untouched; `updated` is
   * set exactly when some field changed.
   */
  function UpdateExistingUser(u: User, first: string, last: string, picture: Option<string>): (d: Diff)
    ensures d.user.firstName == first && d.user.lastName == last
    ensures d.user.profilePicture == (if picture.Some? then picture else u.profilePicture)
    ensures d.user.provider == Google
    ensures d.user.emailVerified
    ensures d.user.password == u.password && d.user.providerId == u.providerId
    ensures d.user.email == u.email && d.user.enabled == u.enabled
    ensures d.updated <==> d.user != u
  {
    var changedFirst := first != u.firstName;
    var changedLast := last != u.lastName;
    var changedPicture := picture.Some? && picture != u.profilePicture;
    var wasLocal := u.provider == Local;
    var wasUnverified := !u.emailVerified;
    var v := u.(firstName := first, lastName := last,
                profilePicture := if changedPicture then picture else u.profilePicture,
                provider := Google, emailVerified := true);
    Diff(v, changedFirst || changedLast || changedPicture || wasLocal || wasUnverified)
  }

  /** `createNewUser`. */
  function CreateNewUser(email: string, first: string, last: string, picture: Option<string>, sub: string): (u: User)
    ensures u.email == email && u.firstName == first && u.lastName == last && u.profilePicture == picture
    ensures u.provider == Google && u.providerId == Some(sub)
    ensures u.emailVerified && u.enabled && u.password.None?
  {
    User(first, last, email, None, picture, Google, Some(sub), true, true)
  }

  /** `processGoogleUser`: merge by email, or create. */
  function ProcessGoogleUser(users: UserStore, a: Attributes): (r: Reconciled)
    ensures KeyedByEmail(users) ==> r.user.email == a.email && KeyedByEmail(r.users)
    ensures KeyedByEmail(users) ==> r.users.Keys == users.Keys + {a.email}
    ensures r.user.provider == Google && r.user.emailVerified
    ensures r.written ==> r.users == Save(users, r.user)
    ensures !r.written ==> r.users == users
  {
    var n := SplitName(a.name);
    match FindByEmail(users, a.email)
    case Some(existing) =>
      var d := UpdateExistingUser(existing, n.first, n.last, a.picture);
      if d.updated then Reconciled(d.user, Save(users, d.user), true)
      else Reconciled(existing, users, false)
    case None =>
      var u := CreateNewUser(a.email, n.first, n.last, a.picture, a.sub);
      Reconciled(u, Save(users, u), true)
  }

  /** `processOAuth2User`: only the "google" registration is handled. */
  function ProcessOAuth2User(registrationId: string, users: UserStore, a: Attributes): (r: Outcome<Reconciled>)
    ensures registrationId != "google" <==> r == Raised(UnsupportedProvider)
    ensures r.Ok? ==> r.value == ProcessGoogleUser(users, a)
    ensures !r.Rejected?
  {
    if registrationId == "google" then Ok(ProcessGoogleUser(users, a))
    else Raised(UnsupportedProvider)
  }

  datatype Login = Login(token: Token, users: UserStore)

  /**
   * `onAuthenticationSuccess`: the token's subject is the reconciled user's
   * email, which is the asserted email; an unsupported provider leaves the
   * store untouched because the error escapes before any lookup.
   */
  function OnAuthenticationSuccess(registrationId: string, users: UserStore, a: Attributes): (r: Outcome<Login>)
    ensures KeyedByEmail(users) && r.Ok? ==> r.value.token == Token(a.email)
    ensures KeyedByEmail(users) && r.Ok? ==> KeyedByEmail(r.value.users)
    ensures r.Ok? <==> registrationId == "google"
  {
    match ProcessOAuth2User(registrationId, users, a)
    case Ok(rec) => Ok(Login(Token(rec.user.email), rec.users))
    case Rejected(e) => Rejected(e)
    case Raised(e) => Raised(e)
  }

  /* ---------------- properties ---------------- */

  /** An unseen email gets exactly one new row: GOOGLE, provider id = sub, verified, enabled. */
  lemma NewEmailCreatesOneUser(users: UserStore, a: Attributes)
    requires KeyedByEmail(users)
    requires a.email !in users
    ensures var r := ProcessGoogleUser(users, a);
      && r.written
      && r.users.Keys == users.Keys + {a.email}
      && |r.users| == |users| + 1
      && (forall e :: e in users ==> r.users[e] == users[e])
      && r.users[a.email] == r.user
      && r.user.provider == Google && r.user.providerId == Some(a.sub)
      && r.user.emailVerified && r.user.enabled
      && r.user.firstName == SplitName(a.name).first && r.user.lastName == SplitName(a.name).last
  {
  }

  /**
   * Merging into an existing row upgrades LOCAL to GOOGLE without setting the
   * provider id and keeps the password hash, so the account is still the same
   * row; a GOOGLE row stays GOOGLE.
   */
  lemma ExistingEmailIsMerged(users: UserStore, a: Attributes)
    requires KeyedByEmail(users)
    requires a.email in users
    ensures var old_ := users[a.email];
      var r := ProcessGoogleUser(users, a);
      && r.users.Keys == users.Keys
      && r.users[a.email] == r.user
      && r.user.provider == Google && r.user.emailVerified
      && r.user.password == old_.password && r.user.providerId == old_.providerId
      && r.user.enabled == old_.enabled && r.user.email == a.email
      && (a.picture.None? ==> r.user.profilePicture == old_.profilePicture)
      && (forall e :: e in users && e != a.email ==> r.users[e] == users[e])
  {
  }

  /** Replaying the same assertion right away writes nothing and changes nothing. */
  lemma {:induction false} ReplayWritesNothing(users: UserStore, a: Attributes)
    requires KeyedByEmail(users)
    ensures var first := ProcessGoogleUser(users, a);
      var second := ProcessGoogleUser(first.users, a);
      !second.written && second.users == first.users && second.user == first.user
  {
    var first := ProcessGoogleUser(users, a);
    var n := SplitName(a.name);
    assert first.users[a.email] == first.user;
    var d := UpdateExistingUser(first.user, n.first, n.last, a.picture);
    assert d.user == first.user;
  }

  /** Merging is idempotent on a single row. */
  lemma UpdateIdempotent(u: User, first: string, last: string, picture: Option<string>)
    ensures var d := UpdateExistingUser(u, first, last, picture);
      !UpdateExistingUser(d.user, first, last, picture).updated
  {
  }

  /** An unsupported provider creates and modifies no user. */
  lemma UnsupportedProviderTouchesNothing(registrationId: string, users: UserStore, a: Attributes)
    requires registrationId != "google"
    ensures OnAuthenticationSuccess(registrationId, users, a) == Raised(UnsupportedProvider)
  {
  }
}

=== FILE: otp.dfy ===
/**
 * The one-time-code ledger: the otp_verification record, the derived
 * queries of its repository, and the service that generates, consumes and
 * sweeps codes. The ledger is a sequence of rows; `now` is passed in.
 */
module Otp {
  import opened Common

  datatype OtpType = EmailVerification | PasswordReset

  /** One row of the otp_verification table. */
  datatype OtpRecord = OtpRecord(
    email: string,
    code: string,
    kind: OtpType,
    createdAt: Time,
    expiresAt: Time,
    verified: bool)

  type Ledger = seq<OtpRecord>

  /** Lifetime of a generated code. */
  const OtpExpirationMinutes: int := 10

  /** Codes are `100000 + nextInt(900000)`. */
  const LowestCode: int := 100000
  const CodeSpan: int := 900000

  /* ---------------- the record ---------------- */

  /**
   * The four-argument constructor: the creation time and the expiry are both
   * read from the clock, modelled as the one instant `now`.
   */
  function NewRecord(email: string, code: string, kind: OtpType, expirationMinutes: int, now: Time): OtpRecord
  {
    OtpRecord(email, code, kind, now, now + expirationMinutes * SecondsPerMinute, false)
  }

  /** `isExpired`: strictly after the expiry instant. */
  predicate IsExpired(r: OtpRecord, now: Time)
  {
    now > r.expiresAt
  }

  /** The tagged state of a record at a given instant; consumption wins. */
  datatype OtpState = Active | Consumed | Expired

  function StateAt(r: OtpRecord, now: Time): OtpState
  {
    if r.verified then Consumed else if IsExpired(r, now) then Expired else Active
  }

  /**
   * A freshly built record is active from its creation through its expiry
   * instant inclusive and expired at every later instant, whatever its
   * verified flag is later set to.
   */
  lemma NewRecordLifetime(email: string, code: string, kind: OtpType, minutes: int, now: Time, t: Time)
    ensures var r := NewRecord(email, code, kind, minutes, now);
      && r.createdAt == now
      && r.expiresAt - r.createdAt == minutes * SecondsPerMinute
      && (StateAt(r, t) == Active <==> t <= now + minutes * SecondsPerMinute)
      && (StateAt(r, t) == Expired <==> t > now + minutes * SecondsPerMinute)
      && (IsExpired(r.(verified := true), t) <==> IsExpired(r, t))
  {
  }

  /* ---------------- repository ---------------- */

  predicate SamePair(r: OtpRecord, email: string, kind: OtpType)
  {
    r.email == email && r.kind == kind
  }

  /** The WHERE clause of `findByEmailAndOtpAndTypeAndVerifiedFalse`. */
  predicate MatchesUnconsumed(r: OtpRecord, email: string, code: string, kind: OtpType)
  {
    r.email == email && r.code == code && r.kind == kind && !r.verified
  }

  /**
   * The Optional-returning lookup fails on more than one row; the ledger's
   * invariant `OnePerPair` guarantees this never happens.
   */
  ghost predicate AtMostOneUnconsumed(l: Ledger, email: string, code: string, kind: OtpType)
  {
    forall i, j ::
      (0 <= i < |l| && 0 <= j < |l| && MatchesUnconsumed(l[i], email, code, kind)
       && MatchesUnconsumed(l[j], email, code, kind)) ==> i == j
  }

  /** The ledger invariant: at most one row per (email, type) pair. */
  ghost predicate OnePerPair(l: Ledger)
  {
    forall i, j :: 0 <= i < |l| && 0 <= j < |l| && SamePair(l[i], l[j].email, l[j].kind) ==> i == j
  }

  lemma OnePerPairGivesUniqueLookup(l: Ledger, email: string, code: string, kind: OtpType)
    requires OnePerPair(l)
    ensures AtMostOneUnconsumed(l, email, code, kind)
  {
    forall i, j | 0 <= i < |l| && 0 <= j < |l| && MatchesUnconsumed(l[i], email, code, kind)
      && MatchesUnconsumed(l[j], email, code, kind)
      ensures i == j
    {
      assert SamePair(l[i], l[j].email, l[j].kind);
    }
  }

  function FindUnconsumedFrom(l: Ledger, email: string, code: string, kind: OtpType, from: nat): (r: Option<nat>)
    requires from <= |l|
    ensures r.Some? ==> from <= r.value < |l| && MatchesUnconsumed(l[r.value], email, code, kind)
    ensures r.None? ==> forall i :: from <= i < |l| ==> !MatchesUnconsumed(l[i], email, code, kind)
    decreases |l| - from
  {
    if from == |l| then None
    else if MatchesUnconsumed(l[from], email, code, kind) then Some(from)
    else FindUnconsumedFrom(l, email, code, kind, from + 1)
  }

  /** `findByEmailAndOtpAndTypeAndVerifiedFalse`: the position of the one matching row. */
  function FindUnconsumed(l: Ledger, email: string, code: string, kind: OtpType): (r: Option<nat>)
    requires AtMostOneUnconsumed(l, email, code, kind)
    ensures r.Some? ==> r.value < |l| && MatchesUnconsumed(l[r.value], email, code, kind)
    ensures r.Some? ==> forall i :: 0 <= i < |l| && MatchesUnconsumed(l[i], email, code, kind) ==> i == r.value
    ensures r.None? <==> forall i :: 0 <= i < |l| ==> !MatchesUnconsumed(l[i], email, code, kind)
  {
    FindUnconsumedFrom(l, email, code, kind, 0)
  }

  /** `existsByEmailAndOtpAndTypeAndVerifiedFalse`: no expiry test. */
  predicate ExistsUnconsumed(l: Ledger, email: string, code: string, kind: OtpType)
  {
    exists i :: 0 <= i < |l| && MatchesUnconsumed(l[i], email, code, kind)
  }

  /** The existence query answers yes exactly when the lookup finds a row. */
  lemma ExistsIffFound(l: Ledger, email: string, code: string, kind: OtpType)
    requires AtMostOneUnconsumed(l, email, code, kind)
    ensures ExistsUnconsumed(l, email, code, kind) <==> FindUnconsumed(l, email, code, kind).Some?
  {
    var r := FindUnconsumed(l, email, code, kind);
    if r.Some? {
      assert MatchesUnconsumed(l[r.value], email, code, kind);
    }
  }

  function OtherPair(email: string, kind: OtpType): OtpRecord -> bool
  {
    (r: OtpRecord) => !SamePair(r, email, kind)
  }

  /** `deleteByEmailAndType`: drops every row of the pair, verified or not. */
  function DeleteByEmailAndType(l: Ledger, email: string, kind: OtpType): (r: Ledger)
    ensures forall x :: x in r ==> !SamePair(x, email, kind)
    ensures forall x :: !SamePair(x, email, kind) ==> multiset(r)[x] == multiset(l)[x]
    ensures Subsequence(r, l)
  {
    Filter(l, OtherPair(email, kind))
  }

  function LiveAt(now: Time): OtpRecord -> bool
  {
    (r: OtpRecord) => !(r.expiresAt < now)
  }

  /** `deleteExpiredOtps(now)`: drops exactly the rows whose expiry is before `now`. */
  function DeleteExpired(l: Ledger, now: Time): (r: Ledger)
    ensures forall x :: x in r ==> x in l && x.expiresAt >= now
    ensures forall x: OtpRecord :: x.expiresAt >= now ==> multiset(r)[x] == multiset(l)[x]
    ensures Subsequence(r, l)
  {
    Filter(l, LiveAt(now))
  }

  /**
   * `findTopByEmailAndTypeOrderByCreatedAtDesc`: a row of the pair created no
   * earlier than any other row of the pair, or nothing when the pair has none.
   */
  method FindLatest(l: Ledger, email: string, kind: OtpType) returns (r: Option<nat>)
    ensures r.Some? ==> r.value < |l| && SamePair(l[r.value], email, kind)
    ensures r.Some? ==> forall i :: 0 <= i < |l| && SamePair(l[i], email, kind) ==> l[i].createdAt <= l[r.value].createdAt
    ensures r.None? <==> forall i :: 0 <= i < |l| ==> !SamePair(l[i], email, kind)
  {
    r := None;
    var k := 0;
    while k < |l|
      invariant 0 <= k <= |l|
      invariant r.Some? ==> r.value < k && SamePair(l[r.value], email, kind)
      invariant r.Some? ==> forall i :: 0 <= i < k && SamePair(l[i], email, kind) ==> l[i].createdAt <= l[r.value].createdAt
      invariant r.None? ==> forall i :: 0 <= i < k ==> !SamePair(l[i], email, kind)
    {
      if SamePair(l[k], email, kind) && (r.None? || l[r.value].createdAt <= l[k].createdAt) {
        r := Some(k);
      }
      k := k + 1;
    }
  }

  /* ---------------- decimal codes ---------------- */

  predicate IsDigit(c: char)
  {
    '0' <= c <= '9'
  }

  predicate AllDigits(s: string)
  {
    forall i :: 0 <= i < |s| ==> IsDigit(s[i])
  }

  function DigitChar(d: int): (c: char)
    requires 0 <= d < 10
  {
    ('0' as int + d) as char
  }

  /** `String.valueOf` of a non-negative int. */
  function DecimalString(n: nat): string
    decreases n
  {
    if n < 10 then [DigitChar(n)] else DecimalString(n / 10) + [DigitChar(n % 10)]
  }

  /** The number a string of decimal digits denotes. */
  function DecimalValue(s: string): nat
    requires AllDigits(s)
    decreases |s|
  {
    if |s| == 0 then 0 else DecimalValue(s[..|s| - 1]) * 10 + (s[|s| - 1] as int - '0' as int)
  }

  function Pow10(k: nat): nat
  {
    if k == 0 then 1 else 10 * Pow10(k - 1)
  }

  /**
   * The decimal form of `n` is all digits, denotes `n`, has exactly `k`
   * characters when `n` has `k` digits, and never starts with '0' unless `n` is 0.
   */
  lemma {:induction false} DecimalStringFacts(n: nat, k: nat)
    requires (k >= 1 && Pow10(k - 1) <= n < Pow10(k)) || (k == 1 && n == 0)
    ensures AllDigits(DecimalString(n))
    ensures DecimalValue(DecimalString(n)) == n
    ensures |DecimalString(n)| == k
    ensures n > 0 ==> DecimalString(n)[0] != '0'
    decreases n
  {
    if n >= 10 {
      assert k >= 2;
      DecimalStringFacts(n / 10, k - 1);
      var s := DecimalString(n);
      assert s == DecimalString(n / 10) + [DigitChar(n % 10)];
      assert s[..|s| - 1] == DecimalString(n / 10);
    }
  }

  /**
   * `generateOtp`, given the draw `nextInt(900000)` returned: six decimal
   * digits, the first never '0', denoting a number in [100000, 999999].
   */
  function GenerateOtp(draw: int): (code: string)
    requires 0 <= draw < CodeSpan
    ensures |code| == 6 && AllDigits(code) && code[0] != '0'
    ensures DecimalValue(code) == LowestCode + draw
  {
    assert Pow10(5) == 100000 && Pow10(6) == 1000000;
    DecimalStringFacts(LowestCode + draw, 6);
    DecimalString(LowestCode + draw)
  }

  /* ---------------- service ---------------- */

  datatype Issued = Issued(code: string, ledger: Ledger)

  /** The rows of the pair, in ledger order. */
  function PairTest(email: string, kind: OtpType): OtpRecord -> bool
  {
    (r: OtpRecord) => SamePair(r, email, kind)
  }

  /**
   * `generateAndSaveOtp`: after it the pair holds exactly one row, the
   * returned code, unverified, created now and expiring ten minutes later;
   * the rows of every other pair are those from before, in the same order.
   */
  function GenerateAndSaveOtp(l: Ledger, email: string, kind: OtpType, now: Time, draw: int): (r: Issued)
    requires 0 <= draw < CodeSpan
    ensures |r.code| == 6 && AllDigits(r.code) && r.code[0] != '0'
    ensures Filter(r.ledger, PairTest(email, kind))
         == [OtpRecord(email, r.code, kind, now, now + 10 * SecondsPerMinute, false)]
    ensures Filter(r.ledger, OtherPair(email, kind)) == Filter(l, OtherPair(email, kind))
  {
    var code := GenerateOtp(draw);
    var kept := DeleteByEmailAndType(l, email, kind);
    var newRow := NewRecord(email, code, kind, OtpExpirationMinutes, now);
    var l' := kept + [newRow];
    FilterConcat(kept, [newRow], PairTest(email, kind));
    FilterNonePass(kept, PairTest(email, kind));
    FilterConcat(kept, [newRow], OtherPair(email, kind));
    FilterAllPass(kept, OtherPair(email, kind));
    FilterFilter(l, OtherPair(email, kind), OtherPair(email, kind), OtherPair(email, kind));
    Issued(code, l')
  }

  datatype Verdict = Verdict(accepted: bool, ledger: Ledger)

  /**
   * `verifyOtp`: accepts exactly when an unconsumed row matches and is not
   * expired, and then marks that row alone verified; otherwise the ledger
   * is left as it was, an expired match included.
   */
  function VerifyOtp(l: Ledger, email: string, code: string, kind: OtpType, now: Time): (v: Verdict)
    requires AtMostOneUnconsumed(l, email, code, kind)
    ensures v.accepted <==> exists i :: 0 <= i < |l| && MatchesUnconsumed(l[i], email, code, kind) && !IsExpired(l[i], now)
    ensures !v.accepted ==> v.ledger == l
    ensures v.accepted ==> exists i :: 0 <= i < |l| && MatchesUnconsumed(l[i], email, code, kind) && !IsExpired(l[i], now)
                                   && v.ledger == l[i := l[i].(verified := true)]
  {
    match FindUnconsumed(l, email, code, kind)
    case None => Verdict(false, l)
    case Some(i) =>
      if IsExpired(l[i], now) then Verdict(false, l)
      else Verdict(true, l[i := l[i].(verified := true)])
  }

  /** `isValidOtp`: a read-only probe that ignores expiry. */
  function IsValidOtp(l: Ledger, email: string, code: string, kind: OtpType): (b: bool)
    ensures b <==> exists i :: 0 <= i < |l| && MatchesUnconsumed(l[i], email, code, kind)
  {
    ExistsUnconsumed(l, email, code, kind)
  }

  /**
   * `cleanupExpiredOtps`: exactly the rows already expired at the sweep
   * instant are removed; the others stay, in order and with their copies.
   */
  function CleanupExpiredOtps(l: Ledger, now: Time): (r: Ledger)
    ensures forall x :: x in l ==> (x in r <==> !IsExpired(x, now))
    ensures forall x :: x in r ==> x in l
    ensures forall x: OtpRecord :: !IsExpired(x, now) ==> multiset(r)[x] == multiset(l)[x]
    ensures Subsequence(r, l)
    ensures |r| <= |l|
  {
    DeleteExpired(l, now)
  }

  /* ---------------- properties ---------------- */

  /** Verification accepts a row exactly when the row's tagged state is Active. */
  lemma VerifyAcceptsOnlyActive(l: Ledger, email: string, code: string, kind: OtpType, now: Time)
    requires AtMostOneUnconsumed(l, email, code, kind)
    ensures VerifyOtp(l, email, code, kind, now).accepted <==>
      exists i :: 0 <= i < |l| && l[i].email == email && l[i].code == code && l[i].kind == kind
                  && StateAt(l[i], now) == Active
  {
  }

  /** A successful verification consumes its row: the same call again is refused. */
  lemma {:induction false} VerifyConsumesOnce(l: Ledger, email: string, code: string, kind: OtpType, now: Time, later: Time)
    requires AtMostOneUnconsumed(l, email, code, kind)
    ensures var v := VerifyOtp(l, email, code, kind, now);
      v.accepted ==>
        && AtMostOneUnconsumed(v.ledger, email, code, kind)
        && !VerifyOtp(v.ledger, email, code, kind, later).accepted
        && !IsValidOtp(v.ledger, email, code, kind)
  {
    var v := VerifyOtp(l, email, code, kind, now);
    if v.accepted {
      var i :| 0 <= i < |l| && MatchesUnconsumed(l[i], email, code, kind) && !IsExpired(l[i], now)
               && v.ledger == l[i := l[i].(verified := true)];
      forall j | 0 <= j < |v.ledger|
        ensures !MatchesUnconsumed(v.ledger[j], email, code, kind)
      {
        if j != i {
          assert v.ledger[j] == l[j];
        }
      }
    }
  }

  /** A matching row that has expired is refused and stays unconsumed. */
  lemma ExpiredMatchIsRefused(l: Ledger, email: string, code: string, kind: OtpType, now: Time, i: nat)
    requires AtMostOneUnconsumed(l, email, code, kind)
    requires i < |l| && MatchesUnconsumed(l[i], email, code, kind) && IsExpired(l[i], now)
    ensures !VerifyOtp(l, email, code, kind, now).accepted
    ensures VerifyOtp(l, email, code, kind, now).ledger[i] == l[i]
    ensures IsValidOtp(l, email, code, kind)
  {
  }

  /** The existence probe answers yes where verification refuses for expiry alone. */
  lemma ProbeIgnoresExpiry(l: Ledger, email: string, code: string, kind: OtpType, now: Time)
    requires AtMostOneUnconsumed(l, email, code, kind)
    ensures VerifyOtp(l, email, code, kind, now).accepted ==> IsValidOtp(l, email, code, kind)
    ensures IsValidOtp(l, email, code, kind) ==>
      (VerifyOtp(l, email, code, kind, now).accepted <==> !IsExpired(l[FindUnconsumed(l, email, code, kind).value], now))
  {
    ExistsIffFound(l, email, code, kind);
  }

  /** Generation keeps the invariant. */
  lemma GeneratePreservesOnePerPair(l: Ledger, email: string, kind: OtpType, now: Time, draw: int)
    requires OnePerPair(l)
    requires 0 <= draw < CodeSpan
    ensures OnePerPair(GenerateAndSaveOtp(l, email, kind, now, draw).ledger)
  {
    var kept := DeleteByEmailAndType(l, email, kind);
    SubsequenceKeepsOnePerPair(kept, l);
    AppendKeepsOnePerPair(kept, NewRecord(email, GenerateOtp(draw), kind, OtpExpirationMinutes, now));
  }

  lemma AppendKeepsOnePerPair(l: Ledger, x: OtpRecord)
    requires OnePerPair(l)
    requires forall y :: y in l ==> !SamePair(y, x.email, x.kind)
    ensures OnePerPair(l + [x])
  {
    var l' := l + [x];
    forall i, j | 0 <= i < |l'| && 0 <= j < |l'| && SamePair(l'[i], l'[j].email, l'[j].kind)
      ensures i == j
    {
      if i < |l| && j < |l| {
        assert l'[i] == l[i] && l'[j] == l[j];
      } else if j < |l| {
        assert l[j] in l;
      }
    }
  }

  lemma {:induction false} SubsequenceKeepsOnePerPair(a: Ledger, b: Ledger)
    requires Subsequence(a, b)
    requires OnePerPair(b)
    ensures OnePerPair(a)
    decreases |b|
  {
    if |a| > 0 && |b| > 0 {
      assert OnePerPair(b[1..]) by {
        forall i, j | 0 <= i < |b[1..]| && 0 <= j < |b[1..]| && SamePair(b[1..][i], b[1..][j].email, b[1..][j].kind)
          ensures i == j
        {
          assert b[1..][i] == b[i + 1] && b[1..][j] == b[j + 1];
        }
      }
      if a[0] == b[0] && Subsequence(a[1..], b[1..]) {
        SubsequenceKeepsOnePerPair(a[1..], b[1..]);
        SubsequenceMembers(a[1..], b[1..]);
        forall x | x in b[1..]
          ensures !SamePair(x, b[0].email, b[0].kind) && !SamePair(b[0], x.email, x.kind)
        {
          var k :| 0 <= k < |b[1..]| && b[1..][k] == x;
          assert b[k + 1] == x;
        }
        forall i, j | 0 <= i < |a| && 0 <= j < |a| && SamePair(a[i], a[j].email, a[j].kind)
          ensures i == j
        {
          if i > 0 {
            assert a[1..][i - 1] == a[i];
          }
          if j > 0 {
            assert a[1..][j - 1] == a[j];
          }
        }
      } else {
        SubsequenceKeepsOnePerPair(a, b[1..]);
      }
    }
  }

  /** Consumption keeps the invariant. */
  lemma VerifyPreservesOnePerPair(l: Ledger, email: string, code: string, kind: OtpType, now: Time)
    requires OnePerPair(l)
    ensures AtMostOneUnconsumed(l, email, code, kind)
    ensures OnePerPair(VerifyOtp(l, email, code, kind, now).ledger)
  {
    OnePerPairGivesUniqueLookup(l, email, code, kind);
    var v := VerifyOtp(l, email, code, kind, now);
    if v.accepted {
      var l' := v.ledger;
      assert |l'| == |l|;
      forall i, j | 0 <= i < |l'| && 0 <= j < |l'| && SamePair(l'[i], l'[j].email, l'[j].kind)
        ensures i == j
      {
        assert SamePair(l[i], l[j].email, l[j].kind);
      }
    }
  }

  /** The sweep keeps the invariant. */
  lemma CleanupPreservesOnePerPair(l: Ledger, now: Time)
    requires OnePerPair(l)
    ensures OnePerPair(CleanupExpiredOtps(l, now))
  {
    SubsequenceKeepsOnePerPair(CleanupExpiredOtps(l, now), l);
  }

  /**
   * The sweep never takes away a row that verification could still accept:
   * at the sweep instant or any later one, verifying against the swept
   * ledger gives the same answer as against the full one.
   */
  lemma {:induction false} CleanupInvisibleToVerify(l: Ledger, now: Time, t: Time, email: string, code: string, kind: OtpType)
    requires AtMostOneUnconsumed(l, email, code, kind)
    requires now <= t
    ensures AtMostOneUnconsumed(CleanupExpiredOtps(l, now), email, code, kind)
    ensures VerifyOtp(CleanupExpiredOtps(l, now), email, code, kind, t).accepted
         == VerifyOtp(l, email, code, kind, t).accepted
  {
    var r := CleanupExpiredOtps(l, now);
    assert AtMostOneUnconsumed(r, email, code, kind) by {
      forall i, j | 0 <= i < |r| && 0 <= j < |r| && MatchesUnconsumed(r[i], email, code, kind)
        && MatchesUnconsumed(r[j], email, code, kind)
        ensures i == j
      {
        SweptUniqueMatch(l, now, email, code, kind, i, j);
      }
    }
    if VerifyOtp(l, email, code, kind, t).accepted {
      var i :| 0 <= i < |l| && MatchesUnconsumed(l[i], email, code, kind) && !IsExpired(l[i], t);
      assert l[i] in l;
      assert multiset(r)[l[i]] == multiset(l)[l[i]] > 0;
      assert l[i] in r;
      var k :| 0 <= k < |r| && r[k] == l[i];
      assert MatchesUnconsumed(r[k], email, code, kind) && !IsExpired(r[k], t);
    }
    if VerifyOtp(r, email, code, kind, t).accepted {
      var k :| 0 <= k < |r| && MatchesUnconsumed(r[k], email, code, kind) && !IsExpired(r[k], t);
      assert r[k] in r;
      var i :| 0 <= i < |l| && l[i] == r[k];
      assert MatchesUnconsumed(l[i], email, code, kind) && !IsExpired(l[i], t);
    }
  }

  /** Two matching positions of the swept ledger are the same position. */
  lemma SweptUniqueMatch(l: Ledger, now: Time, email: string, code: string, kind: OtpType, i: int, j: int)
    requires AtMostOneUnconsumed(l, email, code, kind)
    requires var r := CleanupExpiredOtps(l, now);
      0 <= i < |r| && 0 <= j < |r| && MatchesUnconsumed(r[i], email, code, kind) && MatchesUnconsumed(r[j], email, code, kind)
    ensures i == j
  {
    var r := CleanupExpiredOtps(l, now);
    assert r[i] in r && r[j] in r;
    var a :| 0 <= a < |l| && l[a] == r[i];
    var b :| 0 <= b < |l| && l[b] == r[j];
    assert a == b;
    assert r[i] == r[j];
    assert multiset(l)[r[i]] == 1 by {
      MatchOccursOnce(l, email, code, kind, a);
    }
    if i != j {
      assert multiset(r)[r[i]] == 1;
      TwoPositionsCountTwice(r, i, j);
      assert false;
    }
  }

  lemma MatchOccursOnce(l: Ledger, email: string, code: string, kind: OtpType, a: int)
    requires AtMostOneUnconsumed(l, email, code, kind)
    requires 0 <= a < |l| && MatchesUnconsumed(l[a], email, code, kind)
    ensures multiset(l)[l[a]] == 1
  {
    var x := l[a];
    assert l == l[..a] + [x] + l[a + 1..];
    assert forall k :: 0 <= k < |l| && k != a ==> l[k] != x;
    assert x !in l[..a];
    assert x !in l[a + 1..];
    assert multiset(l) == multiset(l[..a]) + multiset{x} + multiset(l[a + 1..]);
  }

  lemma TwoPositionsCountTwice<T>(s: seq<T>, i: int, j: int)
    requires 0 <= i < j < |s| || 0 <= j < i < |s|
    requires s[i] == s[j]
    ensures multiset(s)[s[i]] >= 2
  {
    var a, b := if i < j then i else j, if i < j then j else i;
    assert s == s[..a] + [s[a]] + s[a + 1..b] + [s[b]] + s[b + 1..];
    assert multiset(s) == multiset(s[..a]) + multiset{s[a]} + multiset(s[a + 1..b]) + multiset{s[b]} + multiset(s[b + 1..]);
  }

  /**
   * Generating a second code for a pair supersedes the first: unless the two
   * draws coincide, the first code no longer verifies, and the second does
   * until it expires.
   */
  lemma {:induction false} RegenerationSupersedes(l: Ledger, email: string, kind: OtpType, now1: Time, d1: int, now2: Time, d2: int, t: Time)
    requires 0 <= d1 < CodeSpan && 0 <= d2 < CodeSpan
    ensures var first := GenerateAndSaveOtp(l, email, kind, now1, d1);
      var second := GenerateAndSaveOtp(first.ledger, email, kind, now2, d2);
      && AtMostOneUnconsumed(second.ledger, email, first.code, kind)
      && AtMostOneUnconsumed(second.ledger, email, second.code, kind)
      && (first.code != second.code ==> !VerifyOtp(second.ledger, email, first.code, kind, t).accepted)
      && (VerifyOtp(second.ledger, email, second.code, kind, t).accepted <==> t <= now2 + 10 * SecondsPerMinute)
  {
    var first := GenerateAndSaveOtp(l, email, kind, now1, d1);
    var second := GenerateAndSaveOtp(first.ledger, email, kind, now2, d2);
    PairRowsAfterGenerate(first.ledger, email, kind, now2, d2, first.code);
    PairRowsAfterGenerate(first.ledger, email, kind, now2, d2, second.code);
  }

  /** After generation the fresh row is the last one and the only row of its pair. */
  lemma GeneratedRowIsAlone(l: Ledger, email: string, kind: OtpType, now: Time, draw: int)
    requires 0 <= draw < CodeSpan
    ensures var r := GenerateAndSaveOtp(l, email, kind, now, draw);
      && |r.ledger| > 0
      && r.ledger[|r.ledger| - 1] == OtpRecord(email, r.code, kind, now, now + 10 * SecondsPerMinute, false)
      && forall i :: 0 <= i < |r.ledger| && SamePair(r.ledger[i], email, kind) ==> i == |r.ledger| - 1
  {
    var kept := DeleteByEmailAndType(l, email, kind);
    var r := GenerateAndSaveOtp(l, email, kind, now, draw);
    assert r.ledger == kept + [NewRecord(email, r.code, kind, OtpExpirationMinutes, now)];
    forall i | 0 <= i < |r.ledger| - 1
      ensures !SamePair(r.ledger[i], email, kind)
    {
      assert r.ledger[i] == kept[i] && kept[i] in kept;
    }
  }

  /**
   * After generation a lookup of the pair is unique for every code, and
   * verification at instant `t` accepts exactly the returned code while `t`
   * is within ten minutes of generation.
   */
  lemma PairRowsAfterGenerate(l: Ledger, email: string, kind: OtpType, now: Time, draw: int, code: string)
    requires 0 <= draw < CodeSpan
    ensures var r := GenerateAndSaveOtp(l, email, kind, now, draw);
      && AtMostOneUnconsumed(r.ledger, email, code, kind)
      && (forall t :: VerifyOtp(r.ledger, email, code, kind, t).accepted <==> code == r.code && t <= now + 10 * SecondsPerMinute)
  {
    GeneratedRowIsAlone(l, email, kind, now, draw);
  }
}

=== FILE: requests.dfy ===
/**
 * The request bodies of the authentication endpoints and the bean-validation
 * constraints declared on their fields, as validity predicates. `@Email`
 * format checking is not modelled.
 */
module Requests {
  import opened Common

  datatype LoginRequest = LoginRequest(email: string, password: string)
  datatype SignupRequest = SignupRequest(firstName: string, lastName: string, email: string, password: string)
  datatype OtpVerificationRequest = OtpVerificationRequest(email: string, otp: string)
  datatype PasswordResetRequest = PasswordResetRequest(email: string, otp: string, newPassword: string)
  datatype EmailRequest = EmailRequest(email: string)

  /** `@NotBlank`: at least one character survives trimming. */
  predicate NotBlank(s: string)
  {
    !IsBlank(s)
  }

  /** `@Size(min, max)` on a non-null string, counted in UTF-16 units as Java counts. */
  predicate SizeWithin(s: string, min: nat, max: nat)
  {
    min <= Utf16Length(s) <= max
  }

  predicate ValidLogin(r: LoginRequest)
  {
    NotBlank(r.email) && NotBlank(r.password)
  }

  predicate ValidSignup(r: SignupRequest)
  {
    && NotBlank(r.firstName) && SizeWithin(r.firstName, 0, 50)
    && NotBlank(r.lastName) && SizeWithin(r.lastName, 0, 50)
    && NotBlank(r.email) && SizeWithin(r.email, 0, 100)
    && NotBlank(r.password) && SizeWithin(r.password, 6, 40)
  }

  predicate ValidOtpVerification(r: OtpVerificationRequest)
  {
    NotBlank(r.email) && NotBlank(r.otp) && SizeWithin(r.otp, 6, 6)
  }

  predicate ValidPasswordReset(r: PasswordResetRequest)
  {
    && NotBlank(r.email)
    && NotBlank(r.otp) && SizeWithin(r.otp, 6, 6)
    && NotBlank(r.newPassword) && SizeWithin(r.newPassword, 6, 40)
  }

  predicate ValidEmailRequest(r: EmailRequest)
  {
    NotBlank(r.email)
  }

  /** A signup that passes validation carries a password that passes login validation. */
  lemma SignupPasswordLogsIn(s: SignupRequest)
    requires ValidSignup(s)
    ensures ValidLogin(LoginRequest(s.email, s.password))
  {
  }

  /**
   * Characters outside the Basic Multilingual Plane count twice: 26 of them
   * make a first name of length 52, which `@Size(max = 50)` refuses.
   */
  lemma SupplementaryCharactersCountTwice(name: string, rest: SignupRequest)
    requires |name| == 26 && forall i :: 0 <= i < |name| ==> name[i] as int >= 0x1_0000
    ensures Utf16Length(name) == 52
    ensures !ValidSignup(rest.(firstName := name))
  {
  }

  /** Six spaces have the right length but are rejected as blank. */
  lemma BlankCodeRejected()
    ensures !ValidOtpVerification(OtpVerificationRequest("a@b.c", "      "))
    ensures ValidOtpVerification(OtpVerificationRequest("a@b.c", "123456"))
  {
    assert !IsBlank("a@b.c") by {
      assert "a@b.c"[0] == 'a';
    }
    assert !IsBlank("123456") by {
      assert "123456"[0] == '1';
    }
    assert Utf16Length("      ") == 6 && Utf16Length("123456") == 6;
  }
}

=== FILE: users.dfy ===
/**
 * The user record and the derived queries of its repository. The store is
 * a map from email to user: the email column is unique, so the map key is
 * the row's identity.
 */
module Users {
  import opened Common

  datatype Provider = Local | Google

  datatype User = User(
    firstName: string,
    lastName: string,
    email: string,
    password: Option<string>,
    profilePicture: Option<string>,
    provider: Provider,
    providerId: Option<string>,
    emailVerified: bool,
    enabled: bool)

  type UserStore = map<string, User>

  /** Every row is filed under its own email. */
  ghost predicate KeyedByEmail(users: UserStore)
  {
    forall e :: e in users ==> users[e].email == e
  }

  /** `findByEmail`: the row with that email, whatever its provider. */
  function FindByEmail(users: UserStore, email: string): (r: Option<User>)
    ensures r.Some? <==> email in users
    ensures KeyedByEmail(users) && r.Some? ==> r.value.email == email
  {
    if email in users then Some(users[email]) else None
  }

  /** `existsByEmail`. */
  function ExistsByEmail(users: UserStore, email: string): (b: bool)
    ensures b <==> FindByEmail(users, email).Some?
  {
    email in users
  }

  /** `findByEmailAndProvider`: the email row, only when it has that provider. */
  function FindByEmailAndProvider(users: UserStore, email: string, provider: Provider): (r: Option<User>)
    ensures r.Some? <==> FindByEmail(users, email).Some? && FindByEmail(users, email).value.provider == provider
    ensures r.Some? ==> r == FindByEmail(users, email) && r.value.provider == provider
  {
    if email in users && users[email].provider == provider then Some(users[email]) else None
  }

  /** `findByLocalEmail`. */
  function FindByLocalEmail(users: UserStore, email: string): (r: Option<User>)
    ensures r.Some? ==> r.value.provider == Local
    ensures KeyedByEmail(users) && r.Some? ==> r.value.email == email
    ensures r.None? <==> email !in users || users[email].provider != Local
  {
    FindByEmailAndProvider(users, email, Local)
  }

  /** `findByGoogleEmail`. */
  function FindByGoogleEmail(users: UserStore, email: string): (r: Option<User>)
    ensures r.Some? ==> r.value.provider == Google
    ensures KeyedByEmail(users) && r.Some? ==> r.value.email == email
    ensures r.None? <==> email !in users || users[email].provider != Google
  {
    FindByEmailAndProvider(users, email, Google)
  }

  /** `save`: insert or replace the row of the user's email; no other row changes. */
  function Save(users: UserStore, u: User): (r: UserStore)
    ensures KeyedByEmail(users) ==> KeyedByEmail(r)
    ensures FindByEmail(r, u.email) == Some(u)
    ensures forall e :: e != u.email ==> FindByEmail(r, e) == FindByEmail(users, e)
    ensures r.Keys == users.Keys + {u.email}
  {
    users[u.email := u]
  }

  /** Each stored email has exactly one of the two provider lookups succeed. */
  lemma ProviderLookupsPartition(users: UserStore, email: string)
    ensures ExistsByEmail(users, email) <==>
      (FindByLocalEmail(users, email).Some? || FindByGoogleEmail(users, email).Some?)
    ensures !(FindByLocalEmail(users, email).Some? && FindByGoogleEmail(users, email).Some?)
  {
    if email in users {
      match users[email].provider
      case Local =>
      case Google =>
    }
  }
}
